=== FILE: README.md ===
# Pharmacy point of sale: checkout, cart and reports in Dafny

This project models the core of a small pharmacy point-of-sale system and proves properties about it. The system is an Express server over SQLite plus a React cashier client. The model covers these parts:

- **Checkout** (`createSale`). It validates the request. Inside one transaction it creates the sale, then allocates every cart line across the product's stock batches in first-expiry-first-out (FEFO) order. Each batch slice becomes one sale item that snapshots the batch's cost. Finally it records the payment and back-fills the sale total. Any failure rolls back the whole transaction.
- **Cart** (the Redux `cartSlice`). The client-side cart and its cached total.
- **Reports**. All-time profit from the cost captured at sale, and the daily cash ledger.
- **Stock**. Stock receipt, the stock history and the stock valuation.
- **Products**. The product listing with its stock totals and expiry warning, and product creation.

The model is functional. Each table is a `seq` of immutable rows in a `Store`. Each endpoint is a pure function that returns a `Result`. An `Err` stands for a rejected request or a rolled-back transaction: the caller keeps the store it had. Money and quantities are SQLite `INTEGER` columns, modelled as unbounded `int`s. Outside inputs become parameters:

- the current day (`today`);
- the current instant (`receivedAt`);
- the invoice number and sale timestamp;
- the ledger's timestamp parser (`instant`).

Expiry dates are day numbers. A zero-padded `YYYY-MM-DD` string compares like the day it names.

Files:

- `results.dfy`: `Option` and `Result`.
- `sequences.dfy`: sums, filters and primary-key distinctness over sequences, and a stable insertion sort by an integer key.
- `domain.dfy`: the tables, id allocation, product lookup and the on-hand sum.
- `allocation.dfy`: the FEFO batch query, greedy allocation, and sequential batch decrements.
- `checkout.dfy`: the checkout transaction and its theorems.
- `cart.dfy`: the cart reducers and their invariant.
- `cart_examples.dfy`: a worked case of the invariant's one exception to the stock bound.
- `reports.dfy`: profit, SQL `LIKE`, and the daily ledger.
- `stock.dfy`: stock receipt, history and valuation.
- `products.dfy`: the listing and product creation.
- `server.dfy`: the store after a sequence of requests, and the stock invariant every reachable store keeps. `Server.Handle` dispatches one request to `Products.CreateProduct`, `Stock.ReceiveStockChecked` or `Checkout.Checkout` and keeps the old store on an error; `Server.Serve` applies a sequence of requests in order. Neither carries a contract of its own; `Server.HandleKeepsSound` and `Server.ReachableStockSound` state what they keep.

Behaviour the model keeps:

- **Expired batches are sold.** The FEFO query selects rows by product and positive quantity only (`Allocation.FefoBatches`), so checkout allocates from expired batches too. Only the product listing discounts expired stock.
- **Empty batches appear in the history.** The stock history lists every batch that has a product, including batches whose quantity has fallen to zero.
- **The expiry warning ignores quantity.** `has_expiring_batch` looks at every batch of the product whose expiry falls within the next 60 days, whatever quantity it holds.
- **Receipts fail for falsy fields and unknown products.** A receipt is refused when any field is falsy, when its expiry is today or earlier, and when its product does not exist (the foreign key). A negative quantity or cost is accepted (see Findings).
- **Profit covers every sale and uses line totals.** Profit is `SUM(line_total) - SUM(cost_at_sale * qty)` over every sale item, with no date range.

## Model

| member | source | states |
|---|---|---|
| Domain.NextId | server/db/database.ts:13 | An `AUTOINCREMENT` id is positive and above every id already in the table. |
| Domain.FindProduct | server/controllers/saleController.ts:35-38 | The lookup finds a product exactly when some row has that id, and the row it returns has that id. |
| Domain.OnHand | server/controllers/productController.ts:11 | `SUM(qty_on_hand)` over a product's batches is 0 when it has no batch and is not negative when no batch is. |
| Allocation.Candidates | server/controllers/saleController.ts:45-53 | The FEFO query selects exactly the rows of that product with positive stock. Unique batch ids stay unique. |
| Allocation.FefoBatches | server/controllers/saleController.ts:45-53 | The query result is ordered by ascending expiry and is a permutation of the selected rows. It contains expired batches too. |
| Allocation.AvailableQty | server/controllers/saleController.ts:45-53 | The units the FEFO query can see are never negative and never below the product's on-hand sum. They equal the on-hand sum when no batch is negative. |
| Allocation.Allocate | server/controllers/saleController.ts:55-83 | Greedy slicing follows the snapshot order. Each slice takes between 1 and the batch's stock. Every slice but the last empties its batch. The units taken are `min(need, stock seen)`, and nothing is taken when the need is 0 or less. |
| Allocation.ApplySlices | server/controllers/saleController.ts:60-63 | The per-slice `UPDATE`s, applied in order, leave every row lowered by the total its id received over all slices. |
| Allocation.DecrementPointwise | server/controllers/saleController.ts:61-63 | One `UPDATE … SET qty_on_hand = qty_on_hand - ? WHERE id = ?` (`Allocation.Decrement`) lowers exactly the rows with that id by the amount and leaves every other row and every other field unchanged. |
| Allocation.FefoHoldsAvailable | server/controllers/saleController.ts:45-53 | The snapshot holds exactly the product's available units, and all of them are positive. |
| Allocation.DrawTakes | server/controllers/saleController.ts:55-87 | One line draws `min(qty, available)` units, so it is filled exactly when the available stock suffices. |
| Allocation.RowDebit | server/controllers/saleController.ts:58-63 | A line draws nothing from rows the query does not select. From a selected row it draws at most that row's stock, so no batch goes negative. |
| Allocation.FefoDrainsEarlierFirst | server/controllers/saleController.ts:44-63 | If a line drew from a batch, every stocked batch of the product that expires strictly earlier ends at 0. |
| Allocation.DrawAccounting | server/controllers/saleController.ts:55-83 | One line lowers the product's available and on-hand units by exactly the units drawn. Other products are untouched. |
| Checkout.SliceItems | server/controllers/saleController.ts:65-79 | One item per slice. Each item records this sale, the product, the batch id, the units taken, the current sale price, `line_total = qty * unit_price`, and the batch's cost as `cost_at_sale`. |
| Checkout.FillLine | server/controllers/saleController.ts:32-89 | One pass of the cart loop. A failure names the line's product as unknown or short of stock. A success leaves the table the same length, and a line with positive quantity then draws exactly its quantity. `Checkout.FillLineSucceedsIff`, `FillLineRows`, `FillLineAccounting` and `FillLineItems` give the rest. |
| Checkout.FillCart | server/controllers/saleController.ts:32-90 | The loop over the cart, threading the batch table from line to line. A failure names the product of one of the cart's lines. A success leaves the table the same length. `Checkout.FillCartSucceedsIff`, `FillCartRows`, `FillCartAccounting` and `FillCartItems` give the rest. |
| Checkout.Checkout | server/controllers/saleController.ts:4-117 | A missing or empty items list is refused first. A missing method or a zero amount is refused next. Success needs an allowed payment method. A committed sale is appended with `discount` 0 and `subtotal = total` equal to the receipt's total. The payment is stored exactly as submitted. Products and expenses are unchanged, and existing sale items are kept. |
| Checkout.FillLineSucceedsIff | server/controllers/saleController.ts:33-87 | One line is skipped when its qty is 0 or less. Otherwise it succeeds exactly when its product exists and its available units cover it. |
| Checkout.FillLineRows | server/controllers/saleController.ts:55-83 | Each row loses exactly what this line's items drew from it, never more than its positive stock. Nothing else about any row changes. |
| Checkout.FillLineAccounting | server/controllers/saleController.ts:40-89 | A filled line lowers available and on-hand units by its qty for its product and by 0 for every other product. Its items sum to that qty, and its subtotal equals its line totals. |
| Checkout.FillLineItems | server/controllers/saleController.ts:66-79 | Every item of a line has a positive qty and the product's sale price. Its cost comes from a batch of that product in the table. |
| Checkout.FillCartSucceedsIff | server/controllers/saleController.ts:32-90 | The cart loop finishes exactly when every non-skipped line names a known product and the cart fits. Fitting means that, product by product, the summed demand of all its lines is at most the available units, since repeated lines see earlier decrements. |
| Checkout.FillCartRows | server/controllers/saleController.ts:32-90 | Over the whole cart, every batch loses exactly the units the sale's items drew from it, never more than its positive stock. |
| Checkout.FillCartAccounting | server/controllers/saleController.ts:32-90 | Over the whole cart, each product's available and on-hand units fall by its summed demand. The items sell exactly that demand, and the subtotal is the sum of the line totals. |
| Checkout.FillCartItems | server/controllers/saleController.ts:32-90 | Every item of the cart is priced at its product's sale price and snapshots the cost of a batch of that product in the original table. |
| Checkout.CheckoutSucceedsIff | server/controllers/saleController.ts:8-116 | A checkout commits if and only if all four hold: the request is well formed, every non-skipped line's product exists, the cart fits in stock, and the payment method passes the CHECK constraint. Otherwise nothing is written. |
| Checkout.CheckoutRecords | server/controllers/saleController.ts:17-107 | A committed sale debits each batch by exactly what its new items drew. Its total equals the sum of their line totals. Batch ids stay unique. |
| Checkout.CheckoutConserves | server/controllers/saleController.ts:17-107 | After a commit, every product's on-hand and available units are lower by exactly the cart's demand for it, and the new items sell exactly that many units. |
| Checkout.CheckoutOfSkippedLines | server/controllers/saleController.ts:33 | A cart whose lines all have qty 0 or less still commits. It records a sale with total 0 and the payment, and leaves every batch and sale item as it was. |
| Checkout.FillLineTouches | server/controllers/saleController.ts:45-63 | One line changes a row only by lowering its quantity. A non-negative row stays non-negative, and a row that changes is one the FEFO query selected for the line's product. |
| Checkout.FillLineDrainsEarlierFirst | server/controllers/saleController.ts:45-83 | Within one cart line, once a batch has been drawn from, every stocked batch of the product that expires strictly earlier is at 0. |
| Checkout.FillCartKeepsDrained | server/controllers/saleController.ts:47-50 | A batch at 0 stays at 0 for the rest of the cart, because the query selects only rows with `qty_on_hand > 0`. |
| Checkout.FillCartDrainsEarlierFirst | server/controllers/saleController.ts:32-90 | Across the whole cart, repeated lines for one product included: if any line drew from a batch, every batch of that product that expires strictly earlier and did not start negative ends at 0. |
| Checkout.CheckoutDrainsEarlierFirst | server/controllers/saleController.ts:4-117 | For a committed sale: if it took units from a batch, every batch of the same product that expires strictly earlier and did not start negative has been sold down to 0. |
| Cart.Position | client/src/store/cartSlice.ts:27-29 | `find` returns the first item with the id, or none exactly when no item has it. |
| Cart.Without | client/src/store/cartSlice.ts:43 | `filter` keeps exactly the items whose id differs. |
| Cart.Add | client/src/store/cartSlice.ts:26-41 | A new id appends one item with qty 1. A known id gets one more unit only while `qty < stock`; otherwise the items are unchanged. The total is recomputed. |
| Cart.Remove | client/src/store/cartSlice.ts:42-48 | The remaining items are exactly those with a different id, and the total is recomputed. |
| Cart.Update | client/src/store/cartSlice.ts:49-63 | The quantity changes only for a known id and `0 < qty <= stock`; otherwise the items are unchanged. The update keeps the cart invariant. |
| Cart.Clear | client/src/store/cartSlice.ts:64-67 | The cart is empty with total 0, which is the value of no items. |
| Cart.ValueReplace | client/src/store/cartSlice.ts:37-40 | Replacing one item changes the folded total by the difference of the two items' `price * qty`. |
| Cart.AddTotal | client/src/store/cartSlice.ts:26-41 | Adding raises the total by the item's price. At the stock limit it raises it by 0. |
| Cart.UpdateTotal | client/src/store/cartSlice.ts:49-63 | Setting a quantity changes the total by the price times the change in quantity, and by 0 when the update is refused. |
| Cart.WithoutDistinct | client/src/store/cartSlice.ts:43 | With unique ids, removal deletes exactly the item's position and keeps the others in order. |
| Cart.RemoveTotal | client/src/store/cartSlice.ts:42-48 | Removing an item drops exactly its value from the total. Removing an unknown id changes nothing. |
| Cart.AddKeepsInv | client/src/store/cartSlice.ts:26-41 | Adding keeps three things: total equal to the value, unique ids, and `1 <= qty <= stock` (or 1 when the stock was below 1). |
| Cart.RemoveKeepsInv | client/src/store/cartSlice.ts:42-48 | Removing keeps the invariant. |
| Cart.ReplayKeepsInv | client/src/store/cartSlice.ts:22-69 | Any sequence of reducer actions keeps the invariant. |
| Cart.ReachableInv | client/src/store/cartSlice.ts:17-69 | Every cart reachable from the initial state has the total equal to its value, unique ids, and every quantity at least 1 and at most its stock, except that an item added while its stock was below 1 may sit at 1 (`addToCart` appends a new item with quantity 1 whatever its stock). |
| CartExamples.OutOfStockItemAdded | client/src/store/cartSlice.ts:34-36 | Adding a product offered with stock 0 to the empty cart gives one item with quantity 1 and stock 0, total 500 at a price of 500. That is the one case where a reachable quantity exceeds its stock. |
| Reports.Profit | server/controllers/reportController.ts:4-14 | The reported profit is the sum, over all sale items, of line total minus cost at sale times qty. It is 0 when there are no items. |
| Reports.ProfitAppend | server/controllers/reportController.ts:9 | Profit is additive over sale items. |
| Reports.ProfitAfterCheckout | server/controllers/reportController.ts:6-14 | A committed checkout raises the profit by `Σ qty * (unit_price - cost_at_sale)` over its new items. |
| Reports.ProfitExample | server/controllers/reportController.ts:6-14 | Selling 3 units priced 1000 from a batch costing 700 commits with total 3000 and raises profit by exactly 900. |
| Reports.LikePrefix | server/controllers/reportController.ts:31-39 | With no wildcard in the date, `LIKE 'date%'` is a prefix test up to ASCII case. |
| Reports.Like | server/controllers/reportController.ts:36 | SQLite `LIKE`: a pattern without `%` or `_` matches exactly the strings of its length that equal it up to ASCII case. `Reports.LikePrefix` and `Reports.DatePrefix` cover the trailing `%` the ledger uses. |
| Reports.DatePrefix | server/controllers/reportController.ts:31-50 | For a date made of digits and dashes, the filter selects exactly the timestamps that start with the date. |
| Reports.SalesOn | server/controllers/reportController.ts:31-39 | The day's INCOME rows are exactly the sales whose `sold_at` matches, each as `Sale #<invoice>` for its total. |
| Reports.ExpensesOn | server/controllers/reportController.ts:42-50 | The day's EXPENSE rows are exactly the expenses whose `spent_at` matches. |
| Reports.GetLedger | server/controllers/reportController.ts:21-75 | The ledger is refused exactly when the date is missing or empty. Its rows are sorted by time. They are a permutation of the day's sales followed by its expenses, and they contain exactly the matching sales and expenses. |
| Reports.LedgerSummaryAgrees | server/controllers/reportController.ts:58-74 | Income is the total of the day's sales and expense the total of its expenses. `netCash` is income minus expense and also the signed sum of the listed rows. The row count equals the matching sales plus the matching expenses. |
| Stock.ReceiveStock | server/controllers/stockController.ts:4-40 | A receipt with any falsy field is refused, and so is one whose expiry is today or earlier. Otherwise it succeeds exactly when the product exists. On success it appends exactly one batch with `qty_on_hand = qty`, a fresh id and the given fields, and changes nothing else. |
| Stock.ReceiveKeepsIdsDistinct | server/controllers/stockController.ts:21-35 | Receipts keep batch ids unique. |
| Stock.NegativeReceiptAccepted | server/controllers/stockController.ts:7-10 | Receiving -5 units is accepted and leaves a batch with negative stock. |
| Stock.ReceiveStockChecked | server/controllers/stockController.ts:7-16 | The corrected receipt succeeds exactly when the as-written checks pass and cost and qty are at least 1. It then returns what `Stock.ReceiveStock` returns. |
| Stock.ReceiveCheckedKeepsNonNegative | server/controllers/stockController.ts:21-35 | A corrected receipt keeps every batch non-negative. `Server.ReachableStockSound` extends this to every sequence of requests. |
| Stock.CheckoutKeepsNonNegative | server/controllers/saleController.ts:55-63 | A committed checkout never makes a batch negative. |
| Server.HandleKeepsSound | server/controllers/stockController.ts:4-40 | Each request that writes stock keeps every batch non-negative and batch ids unique. A corrected receipt (stockController.ts:4-40) adds a positive batch with a fresh id. Product creation (productController.ts:27-53) does not touch batches. A checkout (saleController.ts:45-63) takes at most the stock of rows the query selected for being positive. A refused request or rolled-back sale leaves the store as it was. |
| Server.ReachableStockSound | server/controllers/stockController.ts:21-35 | After any sequence of product creations, corrected receipts and checkouts from an empty database, no batch holds negative stock and no two batches share an id. |
| Stock.Joined | server/controllers/stockController.ts:47-57 | The join lists exactly the batches that have a product, each with that product's names. |
| Stock.StockHistory | server/controllers/stockController.ts:42-71 | The history is ordered by `received_at` descending and is a permutation of the joined rows. `totalValue` is `Σ cost_price * qty` over them. |
| Stock.HistoryValuesAllStock | server/controllers/stockController.ts:63-66 | When the foreign key holds, the history lists every batch, empty ones included. Its value is the whole table valued at cost. |
| Stock.ReceiptRaisesValue | server/controllers/stockController.ts:63-66 | A receipt raises the valuation by its cost times its quantity. |
| Products.ExpiringFlag | server/controllers/productController.ts:13 | The flag is 1 exactly when some batch of the product has `today < expiry <= today + 60`, whatever its quantity, and 0 otherwise. |
| Products.UsableQty | server/controllers/productController.ts:12 | Usable stock equals the on-hand sum when none of the product's batches has expired, and is 0 when all of them have. |
| Products.ListProducts | server/controllers/productController.ts:4-25 | Exactly one row per product. `total_qty` is the on-hand sum, `usable_qty` is the sum over unexpired batches, and the row carries the expiry flag. |
| Products.UsableAtMostTotal | server/controllers/productController.ts:11-12 | With no negative batch, `0 <= usable_qty <= total_qty`. |
| Products.NoBatchesNoStock | server/controllers/productController.ts:11-15 | A product without batches is listed with totals 0 and flag 0. |
| Products.ReceiptUpdatesListing | server/controllers/productController.ts:9-16 | A receipt adds its qty to the product's total and usable stock and leaves other products alone. The product becomes flagged exactly when the new batch expires within 60 days or it was flagged already. |
| Products.CheckoutUpdatesListing | server/controllers/productController.ts:11 | After a checkout, each product's listed total is lower by the cart's demand for it. |
| Products.CreateProduct | server/controllers/productController.ts:27-53 | Creation is refused exactly when `name_mm` is empty or the sale price is 0. Otherwise one product is appended with a fresh id and the given fields, and a zero reorder level becomes 10. |
| Products.NewProductListedEmpty | server/controllers/productController.ts:9-16 | With the foreign key intact, a new product appears in the listing with zero stock and no warning. |
| Sequences.SortBy | server/controllers/reportController.ts:53-56 | Sorting yields a sequence sorted by the key that is a permutation of its input. |
| Sequences.SumOfSortBy | server/controllers/stockController.ts:58-66 | Sorting does not change a sum over the rows. |

## Left out

- Invoice number and sale time: `INV-<Date.now()>` and the ISO `sold_at` come from the wall clock. They are parameters of `Checkout.Checkout`.
- `getSaleDetails` is a read-only lookup that the reports do not depend on.
- `getDetailedProfit` is routed, but its implementation is not part of this model.
- Concurrency and transaction isolation: each checkout is one atomic state change.
- Row order where SQL leaves it open: a `SELECT` without `ORDER BY`, ties under `ORDER BY`, and the `GROUP BY` listing. The model takes table order, with a stable sort for ties.
- Sequences.SortBy: states that the output is sorted and a permutation. It does not state that equal keys keep their input order, although the definition does.
- Checkout.CheckoutSucceedsIff: states when a checkout commits. When several lines would fail, it does not say which line names the error; the definition reports the first failing line, in cart order, as the source does.
- Non-integer, non-numeric or missing `qty` and `productId` values in a cart line, and JavaScript number precision: quantities and prices are integers.
- Expiry and timestamp text that does not parse as a date: expiries are day numbers, and the ledger's parser is a total function.
- A `date` query parameter given as an array, and `NULL` timestamps under `LIKE`.
- Integer overflow of SQLite `SUM`.
- `received_at` is ISO-8601 text of one format, which orders like the instant it names; it is modelled as that instant.
- Expiry text in other forms: the model orders expiries as day numbers, which agrees with `ORDER BY expiry_date` on the TEXT column only for zero-padded `YYYY-MM-DD`. A form such as `2030-1-5`, which `new Date` also accepts, sorts differently as text.
- React pages and components, form schemas, HTTP routing, the API client, database setup, and the seed and maintenance scripts.
- Expense creation: expenses are only read by the ledger.

## Findings

| source | as written | input that shows it | evidently intended | confidence | as-written member | corrected member |
|---|---|---|---|---|---|---|
| server/controllers/stockController.ts:7-10 | The receipt guard rejects only falsy fields, so a negative `qty` or `cost_price` is stored. | `qty = -5` for an existing product with a future expiry: accepted, and the new batch holds -5 units. | Batches are created with a positive quantity and stock is never negative, as the receiving form's `min(1)` rule for `cost_price` and `qty` expects. | medium, not executed | Stock.NegativeReceiptAccepted | Stock.ReceiveStockChecked |

=== FILE: allocation.dfy ===
/** First-expiry-first-out allocation of one cart line against the batch table
    (server/controllers/saleController.ts, the per-line body of `createSale`).

    The line's product batches with stock on hand are read in ascending expiry order, and the
    greedy loop takes `min(qty_on_hand, remaining)` from each in turn until the line is
    covered. Every take becomes an `UPDATE … WHERE id = ?` on the table. */
module Allocation {
  import opened Domain
  import opened Sequences

  /** The `WHERE product_id = ? AND qty_on_hand > 0` clause of the FEFO query. */
  predicate Allocatable(b: Batch, productId: int)
  {
    b.productId == productId && b.qtyOnHand > 0
  }

  function ExpiryKey(b: Batch): int { b.expiry }

  function QtyOf(b: Batch): int { b.qtyOnHand }

  function Min(a: int, b: int): int { if a <= b then a else b }

  /** Rows the FEFO query selects, in table order. */
  function Candidates(batches: seq<Batch>, productId: int): (r: seq<Batch>)
    ensures forall b :: b in r <==> b in batches && Allocatable(b, productId)
    ensures DistinctBy(batches, BatchKey) ==> DistinctBy(r, BatchKey)
  {
    if |batches| == 0 then []
    else
      var rest := Candidates(batches[1..], productId);
      assert forall b :: b in batches <==> b == batches[0] || b in batches[1..] by {
        assert batches == [batches[0]] + batches[1..];
      }
      if Allocatable(batches[0], productId) then
        assert DistinctBy(batches, BatchKey) ==> DistinctBy([batches[0]] + rest, BatchKey) by {
          if DistinctBy(batches, BatchKey) {
            var r := [batches[0]] + rest;
            forall i, j | 0 <= i < j < |r| ensures r[i].id != r[j].id {
              if i == 0 {
                assert r[j] == rest[j - 1];
                assert r[j] in batches[1..];
                var k :| 0 <= k < |batches[1..]| && batches[1..][k] == r[j];
                assert batches[k + 1] == r[j];
              } else {
                assert r[i] == rest[i - 1] && r[j] == rest[j - 1];
              }
            }
          }
        }
        [batches[0]] + rest
      else rest
  }

  /** `SELECT * FROM inventory_batches WHERE product_id = ? AND qty_on_hand > 0
      ORDER BY expiry_date ASC`. Expired batches are not excluded. Rows with the same
      expiry stay in table order. */
  function FefoBatches(batches: seq<Batch>, productId: int): (r: seq<Batch>)
    ensures SortedBy(r, ExpiryKey)
    ensures multiset(r) == multiset(Candidates(batches, productId))
    ensures forall b :: b in r <==> b in batches && Allocatable(b, productId)
    ensures DistinctBy(batches, BatchKey) ==> DistinctBy(r, BatchKey)
  {
    var c := Candidates(batches, productId);
    var r := SortBy(c, ExpiryKey);
    assert DistinctBy(batches, BatchKey) ==> DistinctBy(r, BatchKey) by {
      if DistinctBy(batches, BatchKey) {
        SortByDistinct(c, ExpiryKey, BatchKey);
      }
    }
    assert forall b :: b in r <==> b in c by {
      forall b ensures b in r <==> b in c {
        assert b in r <==> b in multiset(r);
        assert b in c <==> b in multiset(c);
      }
    }
    r
  }

  /** Units of `productId` that the FEFO query can see: the sum of `qty_on_hand` over the
      product's batches with stock on hand, expired or not. */
  function AvailableQty(batches: seq<Batch>, productId: int): (r: int)
    ensures r >= 0
    ensures OnHand(batches, productId) <= r
    ensures (forall k :: 0 <= k < |batches| ==> batches[k].qtyOnHand >= 0) ==> r == OnHand(batches, productId)
  {
    if |batches| == 0 then 0
    else
      assert forall k :: 0 <= k < |batches[1..]| ==> batches[1..][k] == batches[k + 1];
      (if Allocatable(batches[0], productId) then batches[0].qtyOnHand else 0)
      + AvailableQty(batches[1..], productId)
  }

  /** One greedy step: `qtyToTake` units drawn from `batch`. */
  datatype Slice = Slice(batch: Batch, take: int)

  /** Total drawn by a sequence of slices. */
  function Taken(slices: seq<Slice>): int
  {
    if |slices| == 0 then 0 else slices[0].take + Taken(slices[1..])
  }

  /** Total drawn from the batch with id `id`. */
  function TakenFrom(slices: seq<Slice>, id: int): int
  {
    if |slices| == 0 then 0
    else (if slices[0].batch.id == id then slices[0].take else 0) + TakenFrom(slices[1..], id)
  }

  predicate AllPositive(s: seq<Batch>)
  {
    forall k :: 0 <= k < |s| ==> s[k].qtyOnHand > 0
  }

  lemma {:induction false} PositiveSum(s: seq<Batch>)
    ensures AllPositive(s) ==> SumOf(s, QtyOf) >= 0
    decreases |s|
  {
    if |s| > 0 {
      PositiveSum(s[1..]);
    }
  }

  /** The greedy loop over the FEFO rows: take `min(qty_on_hand, remaining)` from each
      batch, stopping as soon as nothing remains. */
  function Allocate(snapshot: seq<Batch>, need: int): (r: seq<Slice>)
    ensures |r| <= |snapshot|
    ensures forall k :: 0 <= k < |r| ==> r[k].batch == snapshot[k]
    ensures need <= 0 ==> r == []
    ensures AllPositive(snapshot) ==>
              forall k :: 0 <= k < |r| ==> 0 < r[k].take <= r[k].batch.qtyOnHand
    ensures AllPositive(snapshot) ==>
              forall k :: 0 <= k < |r| - 1 ==> r[k].take == r[k].batch.qtyOnHand
    ensures AllPositive(snapshot) && need >= 0 ==>
              Taken(r) == Min(need, SumOf(snapshot, QtyOf))
    decreases |snapshot|
  {
    if |snapshot| == 0 || need <= 0 then
      PositiveSum(snapshot);
      []
    else
      var take := Min(snapshot[0].qtyOnHand, need);
      var rest := Allocate(snapshot[1..], need - take);
      assert AllPositive(snapshot) ==> AllPositive(snapshot[1..]);
      PositiveSum(snapshot[1..]);
      var r := [Slice(snapshot[0], take)] + rest;
      assert Taken(r) == take + Taken(rest);
      r
  }

  /** `UPDATE inventory_batches SET qty_on_hand = qty_on_hand - k WHERE id = ?`. */
  function Decrement(batches: seq<Batch>, id: int, k: int): seq<Batch>
  {
    if |batches| == 0 then []
    else
      var b := batches[0];
      [if b.id == id then b.(qtyOnHand := b.qtyOnHand - k) else b] + Decrement(batches[1..], id, k)
  }

  /** A row after every slice has been subtracted from the batch with its id. */
  function Debit(b: Batch, slices: seq<Slice>): Batch
  {
    b.(qtyOnHand := b.qtyOnHand - TakenFrom(slices, b.id))
  }

  lemma {:induction false} DecrementPointwise(batches: seq<Batch>, id: int, k: int)
    ensures |Decrement(batches, id, k)| == |batches|
    ensures forall i :: 0 <= i < |batches| ==>
              Decrement(batches, id, k)[i] ==
                if batches[i].id == id then batches[i].(qtyOnHand := batches[i].qtyOnHand - k)
                else batches[i]
    decreases |batches|
  {
    if |batches| > 0 {
      DecrementPointwise(batches[1..], id, k);
    }
  }

  /** Issues the slices' `UPDATE`s one after another. Each row ends with its quantity
      lowered by exactly what the slices drew from its id; nothing else in it changes. */
  function ApplySlices(batches: seq<Batch>, slices: seq<Slice>): (r: seq<Batch>)
    ensures |r| == |batches|
    ensures forall i :: 0 <= i < |batches| ==> r[i] == Debit(batches[i], slices)
    decreases |slices|
  {
    if |slices| == 0 then batches
    else
      var next := Decrement(batches, slices[0].batch.id, slices[0].take);
      DecrementPointwise(batches, slices[0].batch.id, slices[0].take);
      ApplySlices(next, slices[1..])
  }

  /** The slices emitted for a line of `qty` units of `productId`. */
  function Draw(batches: seq<Batch>, productId: int, qty: int): seq<Slice>
  {
    Allocate(FefoBatches(batches, productId), qty)
  }

  // ---------------------------------------------------------------------------------------
  // Facts about one line's allocation
  // ---------------------------------------------------------------------------------------

  lemma {:induction false} SumOfCandidates(batches: seq<Batch>, productId: int)
    ensures SumOf(Candidates(batches, productId), QtyOf) == AvailableQty(batches, productId)
    decreases |batches|
  {
    if |batches| > 0 {
      SumOfCandidates(batches[1..], productId);
      if Allocatable(batches[0], productId) {
        var rest := Candidates(batches[1..], productId);
        assert ([batches[0]] + rest)[1..] == rest;
      }
    }
  }

  /** The FEFO rows hold exactly the product's available units. */
  lemma FefoHoldsAvailable(batches: seq<Batch>, productId: int)
    ensures SumOf(FefoBatches(batches, productId), QtyOf) == AvailableQty(batches, productId)
    ensures AllPositive(FefoBatches(batches, productId))
  {
    var c := Candidates(batches, productId);
    SumOfSortBy(c, ExpiryKey, QtyOf);
    SumOfCandidates(batches, productId);
    var f := FefoBatches(batches, productId);
    forall k | 0 <= k < |f| ensures f[k].qtyOnHand > 0 {
      assert f[k] in f;
    }
  }

  /** A line is covered exactly when it asks for no more than the available units. */
  lemma DrawTakes(batches: seq<Batch>, productId: int, qty: int)
    requires qty >= 0
    ensures Taken(Draw(batches, productId, qty)) == Min(qty, AvailableQty(batches, productId))
  {
    FefoHoldsAvailable(batches, productId);
  }

  lemma {:induction false} TakenFromAbsent(slices: seq<Slice>, id: int)
    requires forall k :: 0 <= k < |slices| ==> slices[k].batch.id != id
    ensures TakenFrom(slices, id) == 0
    decreases |slices|
  {
    if |slices| > 0 {
      TakenFromAbsent(slices[1..], id);
    }
  }

  /** A batch that lost units is the batch of some slice. */
  lemma {:induction false} TakenFromPresent(slices: seq<Slice>, id: int) returns (k: int)
    requires TakenFrom(slices, id) != 0
    ensures 0 <= k < |slices| && slices[k].batch.id == id
    decreases |slices|
  {
    if slices[0].batch.id == id {
      k := 0;
    } else {
      var k' := TakenFromPresent(slices[1..], id);
      k := k' + 1;
    }
  }

  lemma {:induction false} TakenFromOne(slices: seq<Slice>, m: int)
    requires 0 <= m < |slices|
    requires forall k, l :: 0 <= k < l < |slices| ==> slices[k].batch.id != slices[l].batch.id
    ensures TakenFrom(slices, slices[m].batch.id) == slices[m].take
    decreases |slices|
  {
    var id := slices[m].batch.id;
    if m == 0 {
      TakenFromAbsent(slices[1..], id);
    } else {
      assert slices[1..][m - 1] == slices[m];
      TakenFromOne(slices[1..], m - 1);
    }
  }

  /** What one line's allocation draws from row `i` of the table: nothing from a row the
      FEFO query does not select, and at most its stock from a row it does. */
  lemma RowDebit(batches: seq<Batch>, productId: int, qty: int, i: int)
    requires DistinctBy(batches, BatchKey)
    requires 0 <= i < |batches|
    ensures Allocatable(batches[i], productId) ==>
              0 <= TakenFrom(Draw(batches, productId, qty), batches[i].id) <= batches[i].qtyOnHand
    ensures !Allocatable(batches[i], productId) ==>
              TakenFrom(Draw(batches, productId, qty), batches[i].id) == 0
  {
    var slices := Draw(batches, productId, qty);
    if exists k :: 0 <= k < |slices| && slices[k].batch.id == batches[i].id {
      var k :| 0 <= k < |slices| && slices[k].batch.id == batches[i].id;
      SliceRow(batches, productId, qty, k, i);
      DrawDistinct(batches, productId, qty);
      TakenFromOne(slices, k);
    } else {
      TakenFromAbsent(slices, batches[i].id);
    }
  }

  /** The row a slice was drawn from: the one with the slice's batch id, which the FEFO query
      selected and which holds at least the units taken. */
  lemma SliceRow(batches: seq<Batch>, productId: int, qty: int, k: int, i: int)
    requires DistinctBy(batches, BatchKey)
    requires 0 <= k < |Draw(batches, productId, qty)| && 0 <= i < |batches|
    requires Draw(batches, productId, qty)[k].batch.id == batches[i].id
    ensures Draw(batches, productId, qty)[k].batch == batches[i]
    ensures Allocatable(batches[i], productId)
    ensures 0 < Draw(batches, productId, qty)[k].take <= batches[i].qtyOnHand
  {
    var snap := FefoBatches(batches, productId);
    var slices := Draw(batches, productId, qty);
    FefoHoldsAvailable(batches, productId);
    assert slices[k].batch == snap[k];
    assert snap[k] in snap;
    var l := SameIdSameRow(batches, snap[k], i);
  }

  /** Among the slices of one greedy pass, a batch that expires strictly before a batch the
      pass drew from was itself drawn from in full. */
  lemma DrainedBefore(snap: seq<Batch>, need: int, m: int, k: int)
    requires AllPositive(snap) && SortedBy(snap, ExpiryKey)
    requires 0 <= m < |snap| && 0 <= k < |Allocate(snap, need)|
    requires snap[m].expiry < snap[k].expiry
    ensures m < |Allocate(snap, need)| - 1
    ensures Allocate(snap, need)[m].batch == snap[m]
    ensures Allocate(snap, need)[m].take == snap[m].qtyOnHand
  {
    SortedBefore(snap, ExpiryKey, m, k);
  }

  /** A row whose id is unique in the table is the only row equal to a given table element
      with that id. */
  lemma SameIdSameRow(batches: seq<Batch>, b: Batch, j: int) returns (l: int)
    requires DistinctBy(batches, BatchKey)
    requires 0 <= j < |batches| && b in batches && b.id == batches[j].id
    ensures l == j && batches[l] == b
  {
    l :| 0 <= l < |batches| && batches[l] == b;
    assert BatchKey(batches[l]) == BatchKey(batches[j]);
  }

  /** A line's allocation draws from each batch at most once. */
  lemma DrawDistinct(batches: seq<Batch>, productId: int, qty: int)
    requires DistinctBy(batches, BatchKey)
    ensures var slices := Draw(batches, productId, qty);
            forall k, l :: 0 <= k < l < |slices| ==> slices[k].batch.id != slices[l].batch.id
  {
    var snap := FefoBatches(batches, productId);
    var slices := Draw(batches, productId, qty);
    forall k, l | 0 <= k < l < |slices| ensures slices[k].batch.id != slices[l].batch.id {
      assert slices[k].batch == snap[k] && slices[l].batch == snap[l];
      assert BatchKey(snap[k]) != BatchKey(snap[l]);
    }
  }

  /** The slice a line's allocation drew row `j` from, if the row lost units. */
  lemma TouchedRowSlice(batches: seq<Batch>, productId: int, qty: int, j: int) returns (k: int)
    requires DistinctBy(batches, BatchKey)
    requires 0 <= j < |batches|
    requires TakenFrom(Draw(batches, productId, qty), batches[j].id) != 0
    ensures 0 <= k < |Draw(batches, productId, qty)|
    ensures FefoBatches(batches, productId)[k] == batches[j]
  {
    var snap := FefoBatches(batches, productId);
    var slices := Draw(batches, productId, qty);
    k := TakenFromPresent(slices, batches[j].id);
    assert slices[k].batch == snap[k];
    assert snap[k] in snap;
    var l := SameIdSameRow(batches, snap[k], j);
  }

  /** First expiry, first out: once a line has drawn from a batch, every batch of the
      product that expires strictly earlier and had stock has been drained to zero. */
  lemma FefoDrainsEarlierFirst(batches: seq<Batch>, productId: int, qty: int, i: int, j: int)
    requires DistinctBy(batches, BatchKey)
    requires 0 <= i < |batches| && 0 <= j < |batches|
    requires Allocatable(batches[i], productId) && Allocatable(batches[j], productId)
    requires batches[i].expiry < batches[j].expiry
    requires ApplySlices(batches, Draw(batches, productId, qty))[j].qtyOnHand < batches[j].qtyOnHand
    ensures ApplySlices(batches, Draw(batches, productId, qty))[i].qtyOnHand == 0
  {
    TouchedMeansTaken(batches, Draw(batches, productId, qty), j);
    var k := TouchedRowSlice(batches, productId, qty, j);
    var m := InSnapshot(batches, productId, i);
    var snap := FefoBatches(batches, productId);
    FefoHoldsAvailable(batches, productId);
    DrainedBefore(snap, qty, m, k);
    DrainedRow(batches, productId, qty, i, m);
  }

  lemma TouchedMeansTaken(batches: seq<Batch>, slices: seq<Slice>, j: int)
    requires 0 <= j < |batches|
    requires ApplySlices(batches, slices)[j].qtyOnHand < batches[j].qtyOnHand
    ensures TakenFrom(slices, batches[j].id) != 0
  {
    assert ApplySlices(batches, slices)[j] == Debit(batches[j], slices);
  }

  /** Where an allocatable row sits in the FEFO snapshot. */
  lemma InSnapshot(batches: seq<Batch>, productId: int, i: int) returns (m: int)
    requires 0 <= i < |batches| && Allocatable(batches[i], productId)
    ensures 0 <= m < |FefoBatches(batches, productId)|
    ensures FefoBatches(batches, productId)[m] == batches[i]
  {
    var snap := FefoBatches(batches, productId);
    assert batches[i] in snap;
    m :| 0 <= m < |snap| && snap[m] == batches[i];
  }

  /** Row `i` is emptied when the slice drawn from it took its whole stock. */
  lemma DrainedRow(batches: seq<Batch>, productId: int, qty: int, i: int, m: int)
    requires DistinctBy(batches, BatchKey)
    requires 0 <= i < |batches|
    requires 0 <= m < |Draw(batches, productId, qty)|
    requires Draw(batches, productId, qty)[m].batch == batches[i]
    requires Draw(batches, productId, qty)[m].take == batches[i].qtyOnHand
    ensures ApplySlices(batches, Draw(batches, productId, qty))[i].qtyOnHand == 0
  {
    var slices := Draw(batches, productId, qty);
    DrawDistinct(batches, productId, qty);
    TakenFromOne(slices, m);
    assert ApplySlices(batches, slices)[i] == Debit(batches[i], slices);
  }

  // ---------------------------------------------------------------------------------------
  // Accounting: the table loses exactly what the slices took
  // ---------------------------------------------------------------------------------------

  /** Sum over the table rows of what the slices drew from each row's id. */
  function TakenAcross(batches: seq<Batch>, slices: seq<Slice>): int
  {
    if |batches| == 0 then 0
    else TakenFrom(slices, batches[0].id) + TakenAcross(batches[1..], slices)
  }

  function SliceAcross(batches: seq<Batch>, s: Slice): int
  {
    if |batches| == 0 then 0
    else (if batches[0].id == s.batch.id then s.take else 0) + SliceAcross(batches[1..], s)
  }

  lemma {:induction false} TakenAcrossCons(batches: seq<Batch>, s: Slice, rest: seq<Slice>)
    ensures TakenAcross(batches, [s] + rest) == SliceAcross(batches, s) + TakenAcross(batches, rest)
    decreases |batches|
  {
    if |batches| > 0 {
      assert ([s] + rest)[1..] == rest;
      TakenAcrossCons(batches[1..], s, rest);
    }
  }

  lemma {:induction false} SliceAcrossAbsent(batches: seq<Batch>, s: Slice)
    requires forall i :: 0 <= i < |batches| ==> batches[i].id != s.batch.id
    ensures SliceAcross(batches, s) == 0
    decreases |batches|
  {
    if |batches| > 0 {
      SliceAcrossAbsent(batches[1..], s);
    }
  }

  lemma {:induction false} SliceAcrossOnce(batches: seq<Batch>, s: Slice)
    requires DistinctBy(batches, BatchKey)
    requires s.batch in batches
    ensures SliceAcross(batches, s) == s.take
    decreases |batches|
  {
    if batches[0].id == s.batch.id {
      SliceAcrossAbsent(batches[1..], s);
    } else {
      assert s.batch in batches[1..];
      SliceAcrossOnce(batches[1..], s);
    }
  }

  /** Each slice's batch is exactly one row of the table, so summing the per-row draws counts
      every slice once. */
  lemma {:induction false} TakenAcrossAll(batches: seq<Batch>, slices: seq<Slice>)
    requires DistinctBy(batches, BatchKey)
    requires forall k :: 0 <= k < |slices| ==> slices[k].batch in batches
    ensures TakenAcross(batches, slices) == Taken(slices)
    decreases |slices|
  {
    if |slices| == 0 {
      TakenAcrossNone(batches);
    } else {
      assert slices == [slices[0]] + slices[1..];
      TakenAcrossCons(batches, slices[0], slices[1..]);
      SliceAcrossOnce(batches, slices[0]);
      TakenAcrossAll(batches, slices[1..]);
    }
  }

  lemma {:induction false} TakenAcrossNone(batches: seq<Batch>)
    ensures TakenAcross(batches, []) == 0
    decreases |batches|
  {
    if |batches| > 0 {
      TakenAcrossNone(batches[1..]);
    }
  }

  /** Available units after debiting the rows, given what each row may lose. */
  lemma {:induction false} AvailableAfterDebit(
    batches: seq<Batch>, after: seq<Batch>, slices: seq<Slice>, productId: int, p: int)
    requires |after| == |batches|
    requires forall i :: 0 <= i < |batches| ==> after[i] == Debit(batches[i], slices)
    requires forall i :: 0 <= i < |batches| && Allocatable(batches[i], productId) ==>
               0 <= TakenFrom(slices, batches[i].id) <= batches[i].qtyOnHand
    requires forall i :: 0 <= i < |batches| && !Allocatable(batches[i], productId) ==>
               TakenFrom(slices, batches[i].id) == 0
    ensures AvailableQty(after, p) ==
              AvailableQty(batches, p) - (if p == productId then TakenAcross(batches, slices) else 0)
    decreases |batches|
  {
    if |batches| > 0 {
      AvailableAfterDebit(batches[1..], after[1..], slices, productId, p);
    }
  }

  /** Units on hand after debiting the rows, given that only the product's rows lose any. */
  lemma {:induction false} OnHandAfterDebit(
    batches: seq<Batch>, after: seq<Batch>, slices: seq<Slice>, productId: int, p: int)
    requires |after| == |batches|
    requires forall i :: 0 <= i < |batches| ==> after[i] == Debit(batches[i], slices)
    requires forall i :: 0 <= i < |batches| && !Allocatable(batches[i], productId) ==>
               TakenFrom(slices, batches[i].id) == 0
    ensures OnHand(after, p) ==
              OnHand(batches, p) - (if p == productId then TakenAcross(batches, slices) else 0)
    decreases |batches|
  {
    if |batches| > 0 {
      OnHandAfterDebit(batches[1..], after[1..], slices, productId, p);
    }
  }

  /** One line's allocation lowers the product's available and on-hand units by exactly the
      units drawn, and leaves every other product's units alone. */
  lemma DrawAccounting(batches: seq<Batch>, productId: int, qty: int, p: int)
    requires DistinctBy(batches, BatchKey)
    ensures var after := ApplySlices(batches, Draw(batches, productId, qty));
            var drawn := Taken(Draw(batches, productId, qty));
            && AvailableQty(after, p) == AvailableQty(batches, p) - (if p == productId then drawn else 0)
            && OnHand(after, p) == OnHand(batches, p) - (if p == productId then drawn else 0)
  {
    var slices := Draw(batches, productId, qty);
    var after := ApplySlices(batches, slices);
    forall i | 0 <= i < |batches|
      ensures Allocatable(batches[i], productId) ==>
                0 <= TakenFrom(slices, batches[i].id) <= batches[i].qtyOnHand
      ensures !Allocatable(batches[i], productId) ==> TakenFrom(slices, batches[i].id) == 0
    {
      RowDebit(batches, productId, qty, i);
    }
    var snap := FefoBatches(batches, productId);
    forall k | 0 <= k < |slices| ensures slices[k].batch in batches {
      assert snap[k] in snap;
    }
    TakenAcrossAll(batches, slices);
    AvailableAfterDebit(batches, after, slices, productId, p);
    OnHandAfterDebit(batches, after, slices, productId, p);
  }
}

=== FILE: cart.dfy ===
/** The point-of-sale cart, the Redux slice in client/src/store/cartSlice.ts.

    The state is a list of cart items and a cached `total`. Every reducer rebuilds the state
    and recomputes `total` from the items, except `clearCart`, which sets it to 0 directly.
    Prices and quantities are whole kyats and whole units, so they are `int`s here. */
module Cart {
  import opened Results

  datatype CartItem = CartItem(id: int, name: string, nameMm: string, price: int, qty: int, stock: int)

  datatype CartState = CartState(items: seq<CartItem>, total: int)

  /** The payload of `addToCart`: a cart item without its quantity. */
  datatype Offer = Offer(id: int, name: string, nameMm: string, price: int, stock: int)

  /** The four reducers as actions. */
  datatype Action =
    | AddToCart(offer: Offer)
    | RemoveFromCart(id: int)
    | UpdateQuantity(id: int, qty: int)
    | ClearCart

  /** The slice's initial state. */
  const Empty: CartState := CartState([], 0)

  /** What one line of the cart costs. */
  function ItemValue(item: CartItem): int
  {
    item.price * item.qty
  }

  /** `items.reduce((sum, item) => sum + item.price * item.qty, 0)`, folded from the left. */
  function Value(items: seq<CartItem>): int
  {
    if |items| == 0 then 0
    else Value(items[..|items| - 1]) + ItemValue(items[|items| - 1])
  }

  /** `items.find(item => item.id === id)`: the position of the first item with that id. */
  function Position(items: seq<CartItem>, id: int): (r: Option<nat>)
    ensures r.None? <==> forall j :: 0 <= j < |items| ==> items[j].id != id
    ensures r.Some? ==> r.value < |items| && items[r.value].id == id
    ensures r.Some? ==> forall j :: 0 <= j < r.value ==> items[j].id != id
  {
    if |items| == 0 then None
    else if items[0].id == id then Some(0)
    else
      match Position(items[1..], id)
      case None => None
      case Some(k) => Some(k + 1)
  }

  /** `items.filter(item => item.id !== id)`. */
  function Without(items: seq<CartItem>, id: int): (r: seq<CartItem>)
    ensures forall x :: x in r <==> x in items && x.id != id
    ensures |r| <= |items|
  {
    if |items| == 0 then []
    else if items[0].id == id then Without(items[1..], id)
    else [items[0]] + Without(items[1..], id)
  }

  /** A state with its total recomputed, as each reducer but `clearCart` ends. */
  function Recount(items: seq<CartItem>): (r: CartState)
    ensures r.items == items
    ensures r.total == Value(items)
  {
    CartState(items, Value(items))
  }

  /** `addToCart`: one more unit of an item already in the cart while its stock allows,
      otherwise nothing; a new item enters with quantity 1. */
  function Add(s: CartState, offer: Offer): (r: CartState)
    ensures r.total == Value(r.items)
    ensures Position(s.items, offer.id).None? ==>
              r.items == s.items + [CartItem(offer.id, offer.name, offer.nameMm, offer.price, 1, offer.stock)]
    ensures Position(s.items, offer.id).Some? ==>
              var k := Position(s.items, offer.id).value;
              r.items == if s.items[k].qty < s.items[k].stock
                         then s.items[k := s.items[k].(qty := s.items[k].qty + 1)]
                         else s.items
  {
    match Position(s.items, offer.id)
    case None =>
      Recount(s.items + [CartItem(offer.id, offer.name, offer.nameMm, offer.price, 1, offer.stock)])
    case Some(k) =>
      var item := s.items[k];
      if item.qty < item.stock then Recount(s.items[k := item.(qty := item.qty + 1)])
      else Recount(s.items)
  }

  /** `removeFromCart`: drops every item with that id and keeps the rest in order. */
  function Remove(s: CartState, id: int): (r: CartState)
    ensures r.total == Value(r.items)
    ensures forall x :: x in r.items <==> x in s.items && x.id != id
  {
    Recount(Without(s.items, id))
  }

  /** `updateQuantity`: sets the quantity of the first item with that id, but only to a value
      in `1..stock`; any other request leaves the items as they are. */
  function Update(s: CartState, id: int, qty: int): (r: CartState)
    ensures r.total == Value(r.items)
    ensures Inv(s) ==> Inv(r)
    ensures match Position(s.items, id)
            case None => r.items == s.items
            case Some(k) =>
              r.items == if 0 < qty <= s.items[k].stock then s.items[k := s.items[k].(qty := qty)]
                         else s.items
  {
    match Position(s.items, id)
    case None => Recount(s.items)
    case Some(k) =>
      var item := s.items[k];
      if qty > 0 && qty <= item.stock then Recount(s.items[k := item.(qty := qty)])
      else Recount(s.items)
  }

  /** `clearCart`. */
  function Clear(s: CartState): (r: CartState)
    ensures r.items == [] && r.total == Value(r.items)
  {
    CartState([], 0)
  }

  /** Dispatching an action to the slice's reducer. */
  function Reduce(s: CartState, a: Action): CartState
  {
    match a
    case AddToCart(offer) => Add(s, offer)
    case RemoveFromCart(id) => Remove(s, id)
    case UpdateQuantity(id, qty) => Update(s, id, qty)
    case ClearCart => Clear(s)
  }

  /** The state after dispatching `actions` in order. */
  function Replay(s: CartState, actions: seq<Action>): CartState
    decreases |actions|
  {
    if |actions| == 0 then s else Replay(Reduce(s, actions[0]), actions[1..])
  }

  // ---------------------------------------------------------------------------------------
  // The invariant
  // ---------------------------------------------------------------------------------------

  predicate DistinctIds(items: seq<CartItem>)
  {
    forall i, j :: 0 <= i < j < |items| ==> items[i].id != items[j].id
  }

  /** Every quantity is at least 1 and at most the item's stock; an item added while its
      stock was below 1 may sit at quantity 1. */
  predicate QtyInRange(item: CartItem)
  {
    1 <= item.qty && (item.qty <= item.stock || item.qty == 1)
  }

  /** The cart's invariant: the cached total is the value of the items, the ids are
      distinct, and every quantity is in range. */
  predicate Inv(s: CartState)
  {
    && s.total == Value(s.items)
    && DistinctIds(s.items)
    && forall k :: 0 <= k < |s.items| ==> QtyInRange(s.items[k])
  }

  // ---------------------------------------------------------------------------------------
  // Totals
  // ---------------------------------------------------------------------------------------

  lemma ValueAppend(items: seq<CartItem>, x: CartItem)
    ensures Value(items + [x]) == Value(items) + ItemValue(x)
  {
    assert (items + [x])[..|items|] == items;
  }

  /** Replacing one item changes the total by the difference of the two items' values. */
  lemma {:induction false} ValueReplace(items: seq<CartItem>, k: int, x: CartItem)
    requires 0 <= k < |items|
    ensures Value(items[k := x]) == Value(items) - ItemValue(items[k]) + ItemValue(x)
    decreases |items|
  {
    var last := |items| - 1;
    var init := items[..last];
    if k == last {
      assert items[k := x][..last] == init;
    } else {
      ValueReplace(init, k, x);
      assert items[k := x][..last] == init[k := x];
    }
  }

  /** Adding a new item raises the total by its price; adding one more unit of an item in the
      cart raises it by that item's price, or leaves it alone when the stock is reached. */
  lemma AddTotal(s: CartState, offer: Offer)
    requires s.total == Value(s.items)
    ensures var r := Add(s, offer);
            match Position(s.items, offer.id)
            case None => r.total == s.total + offer.price
            case Some(k) =>
              r.total == s.total + (if s.items[k].qty < s.items[k].stock then s.items[k].price else 0)
  {
    var r := Add(s, offer);
    match Position(s.items, offer.id)
    case None =>
      var x := CartItem(offer.id, offer.name, offer.nameMm, offer.price, 1, offer.stock);
      assert r.items == s.items + [x];
      ValueAppend(s.items, x);
      assert ItemValue(x) == offer.price;
    case Some(k) =>
      var item := s.items[k];
      if item.qty < item.stock {
        var x := item.(qty := item.qty + 1);
        assert r.items == s.items[k := x];
        ValueReplace(s.items, k, x);
        assert ItemValue(x) == ItemValue(item) + item.price;
      } else {
        assert r.items == s.items;
      }
  }

  /** Setting a quantity changes the total by the price times the change in quantity. */
  lemma UpdateTotal(s: CartState, id: int, qty: int)
    requires s.total == Value(s.items)
    ensures var r := Update(s, id, qty);
            match Position(s.items, id)
            case None => r.total == s.total
            case Some(k) =>
              r.total == s.total + (if 0 < qty <= s.items[k].stock then s.items[k].price * (qty - s.items[k].qty) else 0)
  {
    var r := Update(s, id, qty);
    match Position(s.items, id)
    case None =>
      assert r.items == s.items;
    case Some(k) =>
      var item := s.items[k];
      if 0 < qty <= item.stock {
        var x := item.(qty := qty);
        assert r.items == s.items[k := x];
        ValueReplace(s.items, k, x);
        assert ItemValue(x) - ItemValue(item) == item.price * (qty - item.qty);
      } else {
        assert r.items == s.items;
      }
  }

  // ---------------------------------------------------------------------------------------
  // Removal
  // ---------------------------------------------------------------------------------------

  lemma {:induction false} WithoutAbsent(items: seq<CartItem>, id: int)
    requires forall j :: 0 <= j < |items| ==> items[j].id != id
    ensures Without(items, id) == items
    decreases |items|
  {
    if |items| > 0 {
      WithoutAbsent(items[1..], id);
      assert items == [items[0]] + items[1..];
    }
  }

  /** The items without position `k`. */
  function Deleted(items: seq<CartItem>, k: int): (r: seq<CartItem>)
    requires 0 <= k < |items|
    ensures |r| == |items| - 1
    ensures forall j :: 0 <= j < |r| ==> r[j] == items[if j < k then j else j + 1]
  {
    items[..k] + items[k + 1..]
  }

  /** With distinct ids, removing an item that is in the cart deletes exactly its position and
      keeps every other item in place and in order. */
  lemma {:induction false} WithoutDistinct(items: seq<CartItem>, k: int)
    requires DistinctIds(items)
    requires 0 <= k < |items|
    ensures Without(items, items[k].id) == Deleted(items, k)
    decreases |items|
  {
    var id := items[k].id;
    var tail := items[1..];
    if k == 0 {
      assert forall j :: 0 <= j < |tail| ==> tail[j].id != id by {
        forall j | 0 <= j < |tail| ensures tail[j].id != id {
          assert tail[j] == items[j + 1];
        }
      }
      WithoutAbsent(tail, id);
    } else {
      DistinctTail(items);
      assert tail[k - 1] == items[k];
      WithoutDistinct(tail, k - 1);
      assert items[0].id != id;
      assert Without(items, id) == [items[0]] + Without(tail, id);
      DeletedCons(items, k);
    }
  }

  lemma DistinctTail(items: seq<CartItem>)
    requires DistinctIds(items) && |items| > 0
    ensures DistinctIds(items[1..])
  {
    var tail := items[1..];
    forall i, j | 0 <= i < j < |tail| ensures tail[i].id != tail[j].id {
      assert tail[i] == items[i + 1] && tail[j] == items[j + 1];
    }
  }

  lemma DeletedCons(items: seq<CartItem>, k: int)
    requires 0 < k < |items|
    ensures Deleted(items, k) == [items[0]] + Deleted(items[1..], k - 1)
  {
    var tail := items[1..];
    assert tail[..k - 1] + tail[k..] == items[1..k] + items[k + 1..];
    assert items[..k] == [items[0]] + items[1..k];
  }

  /** Removing an item drops its value from the total; removing an id that is not in the cart
      changes nothing. */
  lemma RemoveTotal(s: CartState, id: int)
    requires s.total == Value(s.items)
    requires DistinctIds(s.items)
    ensures var r := Remove(s, id);
            match Position(s.items, id)
            case None => r.items == s.items && r.total == s.total
            case Some(k) =>
              && r.items == Deleted(s.items, k)
              && r.total == s.total - ItemValue(s.items[k])
  {
    var r := Remove(s, id);
    assert r.items == Without(s.items, id);
    match Position(s.items, id)
    case None =>
      WithoutAbsent(s.items, id);
    case Some(k) =>
      WithoutDistinct(s.items, k);
      ValueSplit(s.items, k);
  }

  lemma {:induction false} ValueSplit(items: seq<CartItem>, k: int)
    requires 0 <= k < |items|
    ensures Value(Deleted(items, k)) == Value(items) - ItemValue(items[k])
    decreases |items|
  {
    var last := |items| - 1;
    if k == last {
      assert Deleted(items, k) == items[..last];
    } else {
      var init := items[..last];
      ValueSplit(init, k);
      assert Deleted(items, k) == Deleted(init, k) + [items[last]];
      ValueAppend(Deleted(init, k), items[last]);
    }
  }

  // ---------------------------------------------------------------------------------------
  // The invariant is kept
  // ---------------------------------------------------------------------------------------

  lemma AddKeepsInv(s: CartState, offer: Offer)
    requires Inv(s)
    ensures Inv(Add(s, offer))
  {
    var r := Add(s, offer);
    match Position(s.items, offer.id)
    case None =>
      assert forall j :: 0 <= j < |s.items| ==> r.items[j] == s.items[j];
    case Some(k) =>
  }

  /** Deleting one position keeps the ids distinct and the quantities in range. */
  lemma DeleteKeeps(items: seq<CartItem>, k: int)
    requires 0 <= k < |items|
    requires DistinctIds(items)
    requires forall j :: 0 <= j < |items| ==> QtyInRange(items[j])
    ensures DistinctIds(Deleted(items, k))
    ensures forall j :: 0 <= j < |items| - 1 ==> QtyInRange(Deleted(items, k)[j])
  {
  }

  lemma RemoveKeepsInv(s: CartState, id: int)
    requires Inv(s)
    ensures Inv(Remove(s, id))
  {
    RemoveTotal(s, id);
    match Position(s.items, id)
    case None =>
    case Some(k) =>
      DeleteKeeps(s.items, k);
  }

  /** Every state reachable from the empty cart satisfies the invariant: whatever the user
      does, the displayed total is the value of the cart, no product is listed twice, and every
      quantity is at least 1 and at most its stock, except that an item added while its stock
      was below 1 may sit at 1. */
  lemma {:induction false} ReplayKeepsInv(s: CartState, actions: seq<Action>)
    requires Inv(s)
    ensures Inv(Replay(s, actions))
    decreases |actions|
  {
    if |actions| > 0 {
      var s' := Reduce(s, actions[0]);
      match actions[0] {
        case AddToCart(offer) => AddKeepsInv(s, offer);
        case RemoveFromCart(id) => RemoveKeepsInv(s, id);
        case UpdateQuantity(id, qty) =>
        case ClearCart =>
      }
      ReplayKeepsInv(s', actions[1..]);
    }
  }

  lemma ReachableInv(actions: seq<Action>)
    ensures Inv(Replay(Empty, actions))
  {
    ReplayKeepsInv(Empty, actions);
  }
}

=== FILE: cart_examples.dfy ===
/** A worked case of the cart invariant's one exception to the stock bound. */
module CartExamples {
  import opened Cart

  /** The stock bound has one exception: a product offered with no stock still enters the
      cart with quantity 1, since adding a new item does not consult its stock. */
  lemma OutOfStockItemAdded()
    ensures Replay(Empty, [AddToCart(Offer(1, "a", "a", 500, 0))])
            == CartState([CartItem(1, "a", "a", 500, 1, 0)], 500)
    ensures var item := Replay(Empty, [AddToCart(Offer(1, "a", "a", 500, 0))]).items[0];
            item.qty > item.stock
  {
    var s := Reduce(Empty, AddToCart(Offer(1, "a", "a", 500, 0)));
    assert s.items == [CartItem(1, "a", "a", 500, 1, 0)];
    assert Value(s.items) == 500;
    assert Replay(Empty, [AddToCart(Offer(1, "a", "a", 500, 0))]) == Replay(s, []);
  }
}

=== FILE: checkout.dfy ===
/** The sale checkout transaction, `createSale` in server/controllers/saleController.ts.

    The request is validated, then one database transaction creates the sale, allocates every
    cart line first-expiry-first-out, records the payment and back-fills the sale's total.
    Any failure inside the transaction rolls all of it back: `Checkout` then returns `Err`
    and the caller keeps the store it had. */
module Checkout {
  import opened Results
  import opened Domain
  import opened Sequences
  import opened Allocation

  /** One entry of the request's `items` array. */
  datatype CartLine = CartLine(productId: int, qty: int)

  /** The request's `payment` object. A missing `method` is the empty string and a missing
      `amount` is 0: both are falsy, exactly like the absent JSON fields. */
  datatype PaymentInput = PaymentInput(payMethod: string, amount: int)

  datatype CheckoutError =
    | InvalidItems                      // 400 "Invalid items data", before the transaction
    | InvalidPayment                    // 400 "Invalid payment data", before the transaction
    | ProductNotFound(productId: int)   // thrown inside the transaction
    | InsufficientStock(productId: int) // thrown inside the transaction
    | PaymentRejected(payMethod: string)   // the payments CHECK constraint fails the insert

  /** The JSON answer of a successful checkout. */
  datatype Receipt = Receipt(saleId: int, invoiceNo: string, total: int)

  /** The state threaded through the cart loop: the batch table, the line items emitted so
      far and the running subtotal. */
  datatype Fill = Fill(batches: seq<Batch>, items: seq<SaleItem>, amount: int)

  /** `CHECK(method IN ('CASH', 'KPAY', 'WAVE'))` on the payments table. */
  const PaymentMethods: set<string> := {"CASH", "KPAY", "WAVE"}

  /** One `INSERT INTO sale_items` per slice. */
  function SliceItems(slices: seq<Slice>, saleId: int, productId: int, price: int): (r: seq<SaleItem>)
    ensures |r| == |slices|
    ensures forall k :: 0 <= k < |r| ==>
              && r[k].saleId == saleId && r[k].productId == productId
              && r[k].batchId == slices[k].batch.id && r[k].qty == slices[k].take
              && r[k].unitPrice == price && r[k].costAtSale == slices[k].batch.costPrice
              && r[k].lineTotal == r[k].qty * r[k].unitPrice
  {
    if |slices| == 0 then []
    else
      var s := slices[0];
      [SaleItem(saleId, productId, s.batch.id, s.take, price, s.take * price, s.batch.costPrice)]
      + SliceItems(slices[1..], saleId, productId, price)
  }

  /** The loop's `lineTotal += qtyToTake * unitPrice`. */
  function Revenue(slices: seq<Slice>, price: int): int
  {
    if |slices| == 0 then 0 else slices[0].take * price + Revenue(slices[1..], price)
  }

  /** An error that names the product of `line` as unknown or short of stock. */
  predicate BlamesLine(e: CheckoutError, line: CartLine)
  {
    e == ProductNotFound(line.productId) || e == InsufficientStock(line.productId)
  }

  /** The body of the cart loop for one line: skip it, or allocate it in full, or fail. */
  function FillLine(products: seq<Product>, batches: seq<Batch>, saleId: int, line: CartLine)
    : (r: Result<Fill, CheckoutError>)
    ensures r.Err? ==> BlamesLine(r.error, line)
    ensures r.Ok? ==> |r.value.batches| == |batches|
    ensures r.Ok? && line.qty > 0 ==> Taken(Draw(batches, line.productId, line.qty)) == line.qty
  {
    if line.qty <= 0 then Ok(Fill(batches, [], 0))
    else
      match FindProduct(products, line.productId)
      case None => Err(ProductNotFound(line.productId))
      case Some(product) =>
        var slices := Draw(batches, line.productId, line.qty);
        DrawTakes(batches, line.productId, line.qty);
        if line.qty - Taken(slices) > 0 then Err(InsufficientStock(line.productId))
        else
          Ok(Fill(ApplySlices(batches, slices),
                  SliceItems(slices, saleId, line.productId, product.salePrice),
                  Revenue(slices, product.salePrice)))
  }

  /** The cart loop. Each line sees the batch table as the previous lines left it, so a
      product listed twice is allocated from what the first line did not take. */
  function FillCart(products: seq<Product>, batches: seq<Batch>, saleId: int, lines: seq<CartLine>)
    : (r: Result<Fill, CheckoutError>)
    ensures r.Err? ==> exists i :: 0 <= i < |lines| && BlamesLine(r.error, lines[i])
    ensures r.Ok? ==> |r.value.batches| == |batches|
    decreases |lines|
  {
    if |lines| == 0 then Ok(Fill(batches, [], 0))
    else
      match FillLine(products, batches, saleId, lines[0])
      case Err(e) => Err(e)
      case Ok(first) =>
        match FillCart(products, first.batches, saleId, lines[1..])
        case Err(e) => Err(e)
        case Ok(rest) => Ok(Fill(rest.batches, first.items + rest.items, first.amount + rest.amount))
  }

  /** The request guards of `createSale`: a non-empty items array, a truthy method and a
      truthy amount. */
  predicate ValidRequest(items: Option<seq<CartLine>>, payment: Option<PaymentInput>)
  {
    && items.Some? && |items.value| > 0
    && payment.Some? && payment.value.payMethod != "" && payment.value.amount != 0
  }

  /** `createSale`. `invoiceNo` and `soldAt` are the values the transaction derives from the
      wall clock. On success the new store holds the sale, its line items, its payment and
      the decremented batches; on failure nothing of the transaction survives. */
  function Checkout(db: Store, items: Option<seq<CartLine>>, payment: Option<PaymentInput>,
                    invoiceNo: string, soldAt: string): (r: Result<(Store, Receipt), CheckoutError>)
    ensures (items.None? || |items.value| == 0) ==> r == Err(InvalidItems)
    ensures items.Some? && |items.value| > 0 && !ValidRequest(items, payment) ==> r == Err(InvalidPayment)
    ensures r.Ok? ==> ValidRequest(items, payment) && payment.value.payMethod in PaymentMethods
    ensures r.Ok? ==>
              var (db', receipt) := r.value;
              var sale := Sale(receipt.saleId, invoiceNo, soldAt, receipt.total, 0, receipt.total);
              && receipt.invoiceNo == invoiceNo
              && (forall i :: 0 <= i < |db.sales| ==> db.sales[i].id < receipt.saleId)
              && db'.products == db.products && db'.expenses == db.expenses
              && db'.sales == db.sales + [sale]
              && db'.payments == db.payments
                   + [PaymentRecord(receipt.saleId, payment.value.payMethod, payment.value.amount)]
              && |db'.saleItems| >= |db.saleItems|
              && db'.saleItems[..|db.saleItems|] == db.saleItems
  {
    if items.None? || |items.value| == 0 then Err(InvalidItems)
    else if payment.None? || payment.value.payMethod == "" || payment.value.amount == 0 then
      Err(InvalidPayment)
    else
      var saleId := NextId(db.sales, SaleKey);
      match FillCart(db.products, db.batches, saleId, items.value)
      case Err(e) => Err(e)
      case Ok(fill) =>
        if payment.value.payMethod !in PaymentMethods then Err(PaymentRejected(payment.value.payMethod))
        else
          var sale := Sale(saleId, invoiceNo, soldAt, fill.amount, 0, fill.amount);
          var db' := db.(batches := fill.batches,
                         sales := db.sales + [sale],
                         saleItems := db.saleItems + fill.items,
                         payments := db.payments + [PaymentRecord(saleId, payment.value.payMethod, payment.value.amount)]);
          assert db'.saleItems[..|db.saleItems|] == db.saleItems;
          Ok((db', Receipt(saleId, invoiceNo, fill.amount)))
  }

  // ---------------------------------------------------------------------------------------
  // Vocabulary for the properties
  // ---------------------------------------------------------------------------------------

  /** Units of `productId` the cart asks for, over its lines with a positive quantity. */
  function Demand(lines: seq<CartLine>, productId: int): (r: int)
    ensures r >= 0
  {
    if |lines| == 0 then 0
    else (if lines[0].qty > 0 && lines[0].productId == productId then lines[0].qty else 0)
         + Demand(lines[1..], productId)
  }

  /** Every line that is not skipped names an existing product. */
  predicate AllKnown(products: seq<Product>, lines: seq<CartLine>)
  {
    forall k :: 0 <= k < |lines| && lines[k].qty > 0 ==> FindProduct(products, lines[k].productId).Some?
  }

  /** For every product, the cart asks for no more than the FEFO query can see. */
  ghost predicate Fits(batches: seq<Batch>, lines: seq<CartLine>)
  {
    forall p :: Demand(lines, p) <= AvailableQty(batches, p)
  }

  /** Units the line items drew from the batch with id `batchId`. */
  function DrawnFrom(items: seq<SaleItem>, batchId: int): int
  {
    if |items| == 0 then 0
    else (if items[0].batchId == batchId then items[0].qty else 0) + DrawnFrom(items[1..], batchId)
  }

  /** Units of `productId` the line items sold. */
  function ItemQty(items: seq<SaleItem>, productId: int): int
  {
    if |items| == 0 then 0
    else (if items[0].productId == productId then items[0].qty else 0) + ItemQty(items[1..], productId)
  }

  /** `after` is `before` with at most the quantities on hand changed. */
  predicate OnlyQtyChanged(before: seq<Batch>, after: seq<Batch>)
  {
    |after| == |before| &&
    forall i :: 0 <= i < |before| ==> after[i] == before[i].(qtyOnHand := after[i].qtyOnHand)
  }

  function Max(a: int, b: int): int { if a >= b then a else b }

  /** Every row lost exactly what the items drew from it: never more than its positive stock,
      and nothing at all from a row without stock. */
  predicate RowsDebited(before: seq<Batch>, after: seq<Batch>, items: seq<SaleItem>)
  {
    && OnlyQtyChanged(before, after)
    && forall i :: 0 <= i < |before| ==>
         && after[i].qtyOnHand == before[i].qtyOnHand - DrawnFrom(items, before[i].id)
         && 0 <= DrawnFrom(items, before[i].id) <= Max(0, before[i].qtyOnHand)
  }

  /** The item came from a row of the table: same batch id, same product, and the row's cost
      snapshotted as `cost_at_sale`. */
  predicate FromTable(item: SaleItem, batches: seq<Batch>)
  {
    exists i :: 0 <= i < |batches| && batches[i].id == item.batchId
      && batches[i].productId == item.productId && batches[i].costPrice == item.costAtSale
  }

  /** Line items as the loop writes them: for this sale, a positive quantity, the product's
      current sale price, `line_total = qty * unit_price`, and a batch of the table. */
  predicate ItemsRecorded(items: seq<SaleItem>, saleId: int, products: seq<Product>, batches: seq<Batch>)
  {
    forall k :: 0 <= k < |items| ==>
      && items[k].saleId == saleId
      && items[k].qty > 0
      && items[k].lineTotal == items[k].qty * items[k].unitPrice
      && FindProduct(products, items[k].productId).Some?
      && items[k].unitPrice == FindProduct(products, items[k].productId).value.salePrice
      && FromTable(items[k], batches)
  }

  // ---------------------------------------------------------------------------------------
  // Small facts about the sums
  // ---------------------------------------------------------------------------------------

  lemma {:induction false} SliceItemsSums(slices: seq<Slice>, saleId: int, productId: int, price: int, id: int, p: int)
    ensures DrawnFrom(SliceItems(slices, saleId, productId, price), id) == TakenFrom(slices, id)
    ensures ItemQty(SliceItems(slices, saleId, productId, price), p) == (if p == productId then Taken(slices) else 0)
    ensures LineTotals(SliceItems(slices, saleId, productId, price)) == Revenue(slices, price)
    decreases |slices|
  {
    if |slices| > 0 {
      SliceItemsSums(slices[1..], saleId, productId, price, id, p);
    }
  }

  lemma {:induction false} ItemSumsAppend(a: seq<SaleItem>, b: seq<SaleItem>, id: int, p: int)
    ensures DrawnFrom(a + b, id) == DrawnFrom(a, id) + DrawnFrom(b, id)
    ensures ItemQty(a + b, p) == ItemQty(a, p) + ItemQty(b, p)
    ensures LineTotals(a + b) == LineTotals(a) + LineTotals(b)
    decreases |a|
  {
    if |a| > 0 {
      assert (a + b)[1..] == a[1..] + b;
      ItemSumsAppend(a[1..], b, id, p);
    } else {
      assert a + b == b;
    }
  }

  lemma ItemSumsEmpty(id: int, p: int)
    ensures DrawnFrom([], id) == 0 && ItemQty([], p) == 0 && LineTotals([]) == 0
  {
  }

  lemma OnlyQtyChangedKeepsIds(before: seq<Batch>, after: seq<Batch>)
    requires OnlyQtyChanged(before, after)
    requires DistinctBy(before, BatchKey)
    ensures DistinctBy(after, BatchKey)
  {
    forall i, j | 0 <= i < j < |after| ensures BatchKey(after[i]) != BatchKey(after[j]) {
      assert after[i].id == before[i].id && after[j].id == before[j].id;
      assert BatchKey(before[i]) != BatchKey(before[j]);
    }
  }

  // ---------------------------------------------------------------------------------------
  // One cart line
  // ---------------------------------------------------------------------------------------

  /** A line succeeds exactly when it is skipped, or its product exists and the FEFO query
      sees enough units. */
  lemma FillLineSucceedsIff(products: seq<Product>, batches: seq<Batch>, saleId: int, line: CartLine)
    ensures FillLine(products, batches, saleId, line).Ok? <==>
              line.qty <= 0 ||
              (FindProduct(products, line.productId).Some? && line.qty <= AvailableQty(batches, line.productId))
  {
    if line.qty > 0 {
      DrawTakes(batches, line.productId, line.qty);
    }
  }

  /** A successful line lowers the batches by exactly the units its items record. */
  lemma FillLineRows(products: seq<Product>, batches: seq<Batch>, saleId: int, line: CartLine)
    requires DistinctBy(batches, BatchKey)
    requires FillLine(products, batches, saleId, line).Ok?
    ensures var f := FillLine(products, batches, saleId, line).value;
            RowsDebited(batches, f.batches, f.items)
  {
    var f := FillLine(products, batches, saleId, line).value;
    if line.qty > 0 {
      var product := FindProduct(products, line.productId).value;
      var slices := Draw(batches, line.productId, line.qty);
      forall i | 0 <= i < |batches|
        ensures f.batches[i] == batches[i].(qtyOnHand := f.batches[i].qtyOnHand)
        ensures f.batches[i].qtyOnHand == batches[i].qtyOnHand - DrawnFrom(f.items, batches[i].id)
        ensures 0 <= DrawnFrom(f.items, batches[i].id) <= Max(0, batches[i].qtyOnHand)
      {
        SliceItemsSums(slices, saleId, line.productId, product.salePrice, batches[i].id, 0);
        RowDebit(batches, line.productId, line.qty, i);
      }
    } else {
      forall i | 0 <= i < |batches|
        ensures DrawnFrom(f.items, batches[i].id) == 0
      {
        ItemSumsEmpty(batches[i].id, 0);
      }
    }
  }

  /** A successful line removes its quantity from its product's available and on-hand units,
      sells exactly that quantity, and its subtotal is the sum of its items' line totals. */
  lemma FillLineAccounting(products: seq<Product>, batches: seq<Batch>, saleId: int, line: CartLine, p: int)
    requires DistinctBy(batches, BatchKey)
    requires FillLine(products, batches, saleId, line).Ok?
    ensures var f := FillLine(products, batches, saleId, line).value;
            && AvailableQty(f.batches, p) == AvailableQty(batches, p) - Demand([line], p)
            && OnHand(f.batches, p) == OnHand(batches, p) - Demand([line], p)
            && ItemQty(f.items, p) == Demand([line], p)
            && f.amount == LineTotals(f.items)
  {
    assert Demand([line], p) == (if line.qty > 0 && line.productId == p then line.qty else 0) by {
      assert [line][1..] == [];
    }
    if line.qty > 0 {
      var product := FindProduct(products, line.productId).value;
      var slices := Draw(batches, line.productId, line.qty);
      DrawTakes(batches, line.productId, line.qty);
      DrawAccounting(batches, line.productId, line.qty, p);
      SliceItemsSums(slices, saleId, line.productId, product.salePrice, 0, p);
    } else {
      ItemSumsEmpty(0, p);
    }
  }

  /** A successful line's items are recorded as the loop writes them. */
  lemma FillLineItems(products: seq<Product>, batches: seq<Batch>, saleId: int, line: CartLine)
    requires FillLine(products, batches, saleId, line).Ok?
    ensures ItemsRecorded(FillLine(products, batches, saleId, line).value.items, saleId, products, batches)
  {
    if line.qty > 0 {
      var f := FillLine(products, batches, saleId, line).value;
      var snap := FefoBatches(batches, line.productId);
      var slices := Draw(batches, line.productId, line.qty);
      FefoHoldsAvailable(batches, line.productId);
      forall k | 0 <= k < |f.items| ensures FromTable(f.items[k], batches) && f.items[k].qty > 0 {
        assert slices[k].batch == snap[k];
        assert snap[k] in snap;
        var i :| 0 <= i < |batches| && batches[i] == snap[k];
        assert batches[i].id == f.items[k].batchId;
      }
    }
  }

  // ---------------------------------------------------------------------------------------
  // The whole cart
  // ---------------------------------------------------------------------------------------

  lemma DemandCons(lines: seq<CartLine>, p: int)
    requires |lines| > 0
    ensures Demand(lines, p) == Demand([lines[0]], p) + Demand(lines[1..], p)
  {
    assert [lines[0]][1..] == [];
  }

  /** The cart goes through exactly when every line that is not skipped names an existing
      product and, product by product, the cart asks for no more units than the FEFO query
      can see. A product listed on several lines is judged on the sum of those lines. */
  lemma {:induction false} FillCartSucceedsIff(
    products: seq<Product>, batches: seq<Batch>, saleId: int, lines: seq<CartLine>)
    requires DistinctBy(batches, BatchKey)
    ensures FillCart(products, batches, saleId, lines).Ok? <==>
              AllKnown(products, lines) && Fits(batches, lines)
    decreases |lines|
  {
    if |lines| == 0 {
      assert forall p :: Demand(lines, p) == 0;
    } else {
      var line := lines[0];
      var rest := lines[1..];
      FillLineSucceedsIff(products, batches, saleId, line);
      assert AllKnown(products, lines) <==>
               (line.qty > 0 ==> FindProduct(products, line.productId).Some?) && AllKnown(products, rest) by {
        assert forall k :: 0 <= k < |rest| ==> rest[k] == lines[k + 1];
        if (line.qty > 0 ==> FindProduct(products, line.productId).Some?) && AllKnown(products, rest) {
          forall k | 0 <= k < |lines| && lines[k].qty > 0
            ensures FindProduct(products, lines[k].productId).Some?
          {
            if k > 0 {
              assert lines[k] == rest[k - 1];
            }
          }
        }
      }
      match FillLine(products, batches, saleId, line)
      case Err(_) =>
        if FindProduct(products, line.productId).Some? && line.qty > 0 {
          DemandCons(lines, line.productId);
          assert Demand(lines, line.productId) > AvailableQty(batches, line.productId);
        }
      case Ok(first) =>
        FillLineRows(products, batches, saleId, line);
        OnlyQtyChangedKeepsIds(batches, first.batches);
        FillCartSucceedsIff(products, first.batches, saleId, rest);
        forall p ensures Demand(rest, p) <= AvailableQty(first.batches, p) <==> Demand(lines, p) <= AvailableQty(batches, p) {
          FillLineAccounting(products, batches, saleId, line, p);
          DemandCons(lines, p);
        }
        assert Fits(first.batches, rest) <==> Fits(batches, lines);
    }
  }

  lemma FromTableKept(item: SaleItem, before: seq<Batch>, after: seq<Batch>)
    requires OnlyQtyChanged(before, after)
    requires FromTable(item, after)
    ensures FromTable(item, before)
  {
    var i :| 0 <= i < |after| && after[i].id == item.batchId
      && after[i].productId == item.productId && after[i].costPrice == item.costAtSale;
    assert after[i] == before[i].(qtyOnHand := after[i].qtyOnHand);
  }

  /** Over the whole cart, every batch loses exactly the units the sale's items drew from it,
      never more than its positive stock, and nothing else about any batch changes. */
  lemma {:induction false} FillCartRows(
    products: seq<Product>, batches: seq<Batch>, saleId: int, lines: seq<CartLine>)
    requires DistinctBy(batches, BatchKey)
    requires FillCart(products, batches, saleId, lines).Ok?
    ensures var f := FillCart(products, batches, saleId, lines).value;
            RowsDebited(batches, f.batches, f.items)
    decreases |lines|
  {
    var f := FillCart(products, batches, saleId, lines).value;
    if |lines| == 0 {
      forall i | 0 <= i < |batches| ensures DrawnFrom(f.items, batches[i].id) == 0 {
        ItemSumsEmpty(batches[i].id, 0);
      }
    } else {
      var first := FillLine(products, batches, saleId, lines[0]).value;
      var second := FillCart(products, first.batches, saleId, lines[1..]).value;
      FillLineRows(products, batches, saleId, lines[0]);
      OnlyQtyChangedKeepsIds(batches, first.batches);
      FillCartRows(products, first.batches, saleId, lines[1..]);
      assert f.items == first.items + second.items;
      forall i | 0 <= i < |batches|
        ensures f.batches[i] == batches[i].(qtyOnHand := f.batches[i].qtyOnHand)
        ensures f.batches[i].qtyOnHand == batches[i].qtyOnHand - DrawnFrom(f.items, batches[i].id)
        ensures 0 <= DrawnFrom(f.items, batches[i].id) <= Max(0, batches[i].qtyOnHand)
      {
        var id := batches[i].id;
        assert first.batches[i].id == id;
        ItemSumsAppend(first.items, second.items, id, 0);
      }
    }
  }

  /** Over the whole cart, each product's available and on-hand units drop by exactly what
      the cart asks for, the items sell exactly that, and the subtotal is the sum of the
      items' line totals. */
  lemma {:induction false} FillCartAccounting(
    products: seq<Product>, batches: seq<Batch>, saleId: int, lines: seq<CartLine>, p: int)
    requires DistinctBy(batches, BatchKey)
    requires FillCart(products, batches, saleId, lines).Ok?
    ensures var f := FillCart(products, batches, saleId, lines).value;
            && AvailableQty(f.batches, p) == AvailableQty(batches, p) - Demand(lines, p)
            && OnHand(f.batches, p) == OnHand(batches, p) - Demand(lines, p)
            && ItemQty(f.items, p) == Demand(lines, p)
            && f.amount == LineTotals(f.items)
    decreases |lines|
  {
    if |lines| == 0 {
      ItemSumsEmpty(0, p);
    } else {
      var first := FillLine(products, batches, saleId, lines[0]).value;
      var second := FillCart(products, first.batches, saleId, lines[1..]).value;
      FillLineRows(products, batches, saleId, lines[0]);
      OnlyQtyChangedKeepsIds(batches, first.batches);
      FillLineAccounting(products, batches, saleId, lines[0], p);
      FillCartAccounting(products, first.batches, saleId, lines[1..], p);
      DemandCons(lines, p);
      ItemSumsAppend(first.items, second.items, 0, p);
    }
  }

  lemma ItemsRecordedAppend(a: seq<SaleItem>, b: seq<SaleItem>, saleId: int, products: seq<Product>,
                            before: seq<Batch>, after: seq<Batch>)
    requires OnlyQtyChanged(before, after)
    requires ItemsRecorded(a, saleId, products, before)
    requires ItemsRecorded(b, saleId, products, after)
    ensures ItemsRecorded(a + b, saleId, products, before)
  {
    forall k | |a| <= k < |a + b| ensures FromTable((a + b)[k], before) {
      assert (a + b)[k] == b[k - |a|];
      FromTableKept(b[k - |a|], before, after);
    }
    assert forall k :: |a| <= k < |a + b| ==> (a + b)[k] == b[k - |a|];
  }

  /** Every item of the cart is recorded as the loop writes it, against a batch of the table
      the checkout started from. */
  lemma {:induction false} FillCartItems(
    products: seq<Product>, batches: seq<Batch>, saleId: int, lines: seq<CartLine>)
    requires DistinctBy(batches, BatchKey)
    requires FillCart(products, batches, saleId, lines).Ok?
    ensures ItemsRecorded(FillCart(products, batches, saleId, lines).value.items, saleId, products, batches)
    decreases |lines|
  {
    if |lines| > 0 {
      var f := FillCart(products, batches, saleId, lines).value;
      var first := FillLine(products, batches, saleId, lines[0]).value;
      var second := FillCart(products, first.batches, saleId, lines[1..]).value;
      FillLineRows(products, batches, saleId, lines[0]);
      OnlyQtyChangedKeepsIds(batches, first.batches);
      FillLineItems(products, batches, saleId, lines[0]);
      FillCartItems(products, first.batches, saleId, lines[1..]);
      ItemsRecordedAppend(first.items, second.items, saleId, products, batches, first.batches);
    }
  }

  // ---------------------------------------------------------------------------------------
  // The transaction
  // ---------------------------------------------------------------------------------------

  /** A checkout commits exactly when the request is well formed, every line that is not
      skipped names an existing product, the cart fits in the stock the FEFO query can see,
      and the payment method passes the payments table's CHECK constraint. */
  lemma CheckoutSucceedsIff(db: Store, items: Option<seq<CartLine>>, payment: Option<PaymentInput>,
                            invoiceNo: string, soldAt: string)
    requires DistinctBy(db.batches, BatchKey)
    ensures Checkout(db, items, payment, invoiceNo, soldAt).Ok? <==>
              && ValidRequest(items, payment)
              && AllKnown(db.products, items.value)
              && Fits(db.batches, items.value)
              && payment.value.payMethod in PaymentMethods
  {
    if ValidRequest(items, payment) {
      FillCartSucceedsIff(db.products, db.batches, NextId(db.sales, SaleKey), items.value);
    }
  }

  /** What a committed checkout wrote: the new line items are the tail of `sale_items`; every
      batch lost exactly the units those items drew from it; every item is priced at its
      product's sale price and snapshots the cost of a batch of that product; the sale's total
      is the sum of the line totals; and batch ids stay unique. */
  lemma CheckoutRecords(db: Store, items: Option<seq<CartLine>>, payment: Option<PaymentInput>,
                        invoiceNo: string, soldAt: string)
    requires DistinctBy(db.batches, BatchKey)
    requires Checkout(db, items, payment, invoiceNo, soldAt).Ok?
    ensures var (db', receipt) := Checkout(db, items, payment, invoiceNo, soldAt).value;
            var added := db'.saleItems[|db.saleItems|..];
            && RowsDebited(db.batches, db'.batches, added)
            && ItemsRecorded(added, receipt.saleId, db.products, db.batches)
            && receipt.total == LineTotals(added)
            && DistinctBy(db'.batches, BatchKey)
  {
    var saleId := NextId(db.sales, SaleKey);
    var fill := FillCart(db.products, db.batches, saleId, items.value).value;
    var db' := Checkout(db, items, payment, invoiceNo, soldAt).value.0;
    assert db'.saleItems == db.saleItems + fill.items;
    assert db'.saleItems[|db.saleItems|..] == fill.items;
    FillCartRows(db.products, db.batches, saleId, items.value);
    FillCartItems(db.products, db.batches, saleId, items.value);
    FillCartAccounting(db.products, db.batches, saleId, items.value, 0);
    OnlyQtyChangedKeepsIds(db.batches, db'.batches);
  }

  /** Stock conservation: after a committed checkout every product's on-hand and available
      units are lower by exactly what the cart asked for, and the sale's items sold exactly
      that many units of it. Products the cart does not mention keep their stock. */
  lemma CheckoutConserves(db: Store, items: Option<seq<CartLine>>, payment: Option<PaymentInput>,
                          invoiceNo: string, soldAt: string, p: int)
    requires DistinctBy(db.batches, BatchKey)
    requires Checkout(db, items, payment, invoiceNo, soldAt).Ok?
    ensures var db' := Checkout(db, items, payment, invoiceNo, soldAt).value.0;
            && OnHand(db'.batches, p) == OnHand(db.batches, p) - Demand(items.value, p)
            && AvailableQty(db'.batches, p) == AvailableQty(db.batches, p) - Demand(items.value, p)
            && ItemQty(db'.saleItems[|db.saleItems|..], p) == Demand(items.value, p)
  {
    var saleId := NextId(db.sales, SaleKey);
    var fill := FillCart(db.products, db.batches, saleId, items.value).value;
    var db' := Checkout(db, items, payment, invoiceNo, soldAt).value.0;
    assert db'.saleItems[|db.saleItems|..] == fill.items;
    FillCartAccounting(db.products, db.batches, saleId, items.value, p);
  }

  /** Lines with a quantity of zero or less are skipped: they touch no batch and emit no
      item. */
  lemma {:induction false} FillCartSkipsAll(
    products: seq<Product>, batches: seq<Batch>, saleId: int, lines: seq<CartLine>)
    requires forall k :: 0 <= k < |lines| ==> lines[k].qty <= 0
    ensures FillCart(products, batches, saleId, lines) == Ok(Fill(batches, [], 0))
    decreases |lines|
  {
    if |lines| > 0 {
      assert forall k :: 0 <= k < |lines[1..]| ==> lines[1..][k] == lines[k + 1];
      FillCartSkipsAll(products, batches, saleId, lines[1..]);
      assert lines[0].qty <= 0;
      assert FillLine(products, batches, saleId, lines[0]) == Ok(Fill(batches, [], 0));
      var none: seq<SaleItem> := [];
      assert none + none == none;
    }
  }

  /** A well-formed request whose every line has a quantity of zero or less still commits,
      when its payment method is allowed: it records a sale with total 0 and a payment for
      the submitted amount, and leaves every batch as it was. */
  lemma CheckoutOfSkippedLines(db: Store, lines: seq<CartLine>, payment: PaymentInput,
                               invoiceNo: string, soldAt: string)
    requires ValidRequest(Some(lines), Some(payment)) && payment.payMethod in PaymentMethods
    requires forall k :: 0 <= k < |lines| ==> lines[k].qty <= 0
    ensures var r := Checkout(db, Some(lines), Some(payment), invoiceNo, soldAt);
            && r.Ok?
            && r.value.0.batches == db.batches
            && r.value.0.saleItems == db.saleItems
            && r.value.1.total == 0
  {
    FillCartSkipsAll(db.products, db.batches, NextId(db.sales, SaleKey), lines);
  }

  // ---------------------------------------------------------------------------------------
  // First expiry, first out across the whole sale
  // ---------------------------------------------------------------------------------------

  /** One line changes a row only by lowering it, never below zero from a non-negative
      start, and only when the FEFO query selected that row for the line's product. */
  lemma FillLineTouches(products: seq<Product>, batches: seq<Batch>, saleId: int, line: CartLine, k: int)
    requires DistinctBy(batches, BatchKey)
    requires FillLine(products, batches, saleId, line).Ok?
    requires 0 <= k < |batches|
    ensures var after := FillLine(products, batches, saleId, line).value.batches;
            && |after| == |batches|
            && after[k] == batches[k].(qtyOnHand := after[k].qtyOnHand)
            && after[k].qtyOnHand <= batches[k].qtyOnHand
            && (batches[k].qtyOnHand >= 0 ==> after[k].qtyOnHand >= 0)
            && (after[k].qtyOnHand < batches[k].qtyOnHand ==>
                  line.qty > 0 && Allocatable(batches[k], line.productId))
  {
    FillLineRows(products, batches, saleId, line);
    var after := FillLine(products, batches, saleId, line).value.batches;
    if line.qty > 0 {
      var slices := Draw(batches, line.productId, line.qty);
      RowDebit(batches, line.productId, line.qty, k);
      assert after[k] == Debit(batches[k], slices);
    }
  }

  /** First expiry, first out for one cart line: once the line has drawn from a batch, every
      batch of the product that expires strictly earlier and had stock is at zero. */
  lemma FillLineDrainsEarlierFirst(products: seq<Product>, batches: seq<Batch>, saleId: int,
                                   line: CartLine, i: int, j: int)
    requires DistinctBy(batches, BatchKey)
    requires FillLine(products, batches, saleId, line).Ok?
    requires 0 <= i < |batches| && 0 <= j < |batches|
    requires Allocatable(batches[i], line.productId) && Allocatable(batches[j], line.productId)
    requires batches[i].expiry < batches[j].expiry
    requires FillLine(products, batches, saleId, line).value.batches[j].qtyOnHand < batches[j].qtyOnHand
    ensures FillLine(products, batches, saleId, line).value.batches[i].qtyOnHand == 0
  {
    FillLineTouches(products, batches, saleId, line, j);
    FefoDrainsEarlierFirst(batches, line.productId, line.qty, i, j);
  }

  /** A batch at zero stays at zero for the rest of the cart: the query skips it. */
  lemma {:induction false} FillCartKeepsDrained(products: seq<Product>, batches: seq<Batch>, saleId: int,
                                                lines: seq<CartLine>, i: int)
    requires DistinctBy(batches, BatchKey)
    requires FillCart(products, batches, saleId, lines).Ok?
    requires 0 <= i < |batches| && batches[i].qtyOnHand == 0
    ensures FillCart(products, batches, saleId, lines).value.batches[i].qtyOnHand == 0
    decreases |lines|
  {
    if |lines| > 0 {
      var first := FillLine(products, batches, saleId, lines[0]).value;
      FillLineTouches(products, batches, saleId, lines[0], i);
      FillLineRows(products, batches, saleId, lines[0]);
      OnlyQtyChangedKeepsIds(batches, first.batches);
      FillCartKeepsDrained(products, first.batches, saleId, lines[1..], i);
    }
  }

  /** First expiry, first out for the whole cart, repeated lines for one product included:
      once any line has drawn from a batch, every batch of the same product that expires
      strictly earlier and did not start negative ends the cart at zero. */
  lemma {:induction false} FillCartDrainsEarlierFirst(products: seq<Product>, batches: seq<Batch>,
                                                      saleId: int, lines: seq<CartLine>, i: int, j: int)
    requires DistinctBy(batches, BatchKey)
    requires FillCart(products, batches, saleId, lines).Ok?
    requires 0 <= i < |batches| && 0 <= j < |batches|
    requires batches[i].productId == batches[j].productId && batches[i].qtyOnHand >= 0
    requires batches[i].expiry < batches[j].expiry
    requires FillCart(products, batches, saleId, lines).value.batches[j].qtyOnHand < batches[j].qtyOnHand
    ensures FillCart(products, batches, saleId, lines).value.batches[i].qtyOnHand == 0
    decreases |lines|
  {
    if |lines| == 0 {
      assert false;
    } else {
      var line := lines[0];
      var first := FillLine(products, batches, saleId, line).value;
      FillLineTouches(products, batches, saleId, line, i);
      FillLineTouches(products, batches, saleId, line, j);
      FillLineRows(products, batches, saleId, line);
      OnlyQtyChangedKeepsIds(batches, first.batches);
      if first.batches[j].qtyOnHand < batches[j].qtyOnHand {
        if batches[i].qtyOnHand > 0 {
          FillLineDrainsEarlierFirst(products, batches, saleId, line, i, j);
        }
        FillCartKeepsDrained(products, first.batches, saleId, lines[1..], i);
      } else {
        FillCartDrainsEarlierFirst(products, first.batches, saleId, lines[1..], i, j);
      }
    }
  }

  /** First expiry, first out for a committed sale: if the sale took units from a batch, every
      batch of the same product that expires strictly earlier and did not start negative has
      been sold down to zero. */
  lemma CheckoutDrainsEarlierFirst(db: Store, items: Option<seq<CartLine>>, payment: Option<PaymentInput>,
                                   invoiceNo: string, soldAt: string, i: int, j: int)
    requires DistinctBy(db.batches, BatchKey)
    requires Checkout(db, items, payment, invoiceNo, soldAt).Ok?
    requires 0 <= i < |db.batches| && 0 <= j < |db.batches|
    requires db.batches[i].productId == db.batches[j].productId && db.batches[i].qtyOnHand >= 0
    requires db.batches[i].expiry < db.batches[j].expiry
    requires Checkout(db, items, payment, invoiceNo, soldAt).value.0.batches[j].qtyOnHand
             < db.batches[j].qtyOnHand
    ensures Checkout(db, items, payment, invoiceNo, soldAt).value.0.batches[i].qtyOnHand == 0
  {
    var saleId := NextId(db.sales, SaleKey);
    var fill := FillCart(db.products, db.batches, saleId, items.value).value;
    assert Checkout(db, items, payment, invoiceNo, soldAt).value.0.batches == fill.batches;
    FillCartDrainsEarlierFirst(db.products, db.batches, saleId, items.value, i, j);
  }
}

=== FILE: domain.dfy ===
/** The persisted tables of the pharmacy point of sale: products, expiry-dated stock batches,
    sales with their line items and payments, and expenses.

    Money and quantities are SQLite `INTEGER` columns, modelled as unbounded `int`s.
    Expiry dates are zero-padded `YYYY-MM-DD` text compared as text; they are modelled as day numbers.
    `received_at` is ISO-8601 text of one fixed format, which orders like the instant it
    denotes; it is modelled as that instant. `sold_at` and `spent_at` stay text because the
    ledger filters them with SQL `LIKE`. */
module Domain {
  import opened Results

  /** A calendar day, counted from any fixed origin. */
  type Day = int

  /** A point in time, for instance milliseconds since the epoch. */
  type Instant = int

  datatype Product = Product(
    id: int,
    nameMm: string,
    nameEn: Option<string>,
    barcode: Option<string>,
    salePrice: int,
    reorderLevel: int)

  /** One received lot of a product: its expiry, unit cost and the quantity still on hand. */
  datatype Batch = Batch(
    id: int,
    productId: int,
    batchNo: string,
    expiry: Day,
    costPrice: int,
    qtyOnHand: int,
    receivedAt: Instant)

  datatype Sale = Sale(
    id: int,
    invoiceNo: string,
    soldAt: string,
    subtotal: int,
    discount: int,
    total: int)

  /** One slice of a cart line, drawn from one batch, with the batch's cost snapshotted. */
  datatype SaleItem = SaleItem(
    saleId: int,
    productId: int,
    batchId: int,
    qty: int,
    unitPrice: int,
    lineTotal: int,
    costAtSale: int)

  datatype PaymentRecord = PaymentRecord(saleId: int, payMethod: string, amount: int)

  datatype Expense = Expense(id: int, spentAt: string, particulars: string, amount: int)

  /** The whole database. */
  datatype Store = Store(
    products: seq<Product>,
    batches: seq<Batch>,
    sales: seq<Sale>,
    saleItems: seq<SaleItem>,
    payments: seq<PaymentRecord>,
    expenses: seq<Expense>)

  function ProductKey(p: Product): int { p.id }
  function BatchKey(b: Batch): int { b.id }
  function SaleKey(s: Sale): int { s.id }

  /** The `INTEGER PRIMARY KEY AUTOINCREMENT` value the next insert receives. Rows are never
      deleted by the modelled operations, so it is one more than the largest id in use. */
  function NextId<T>(rows: seq<T>, id: T -> int): (r: int)
    ensures r >= 1
    ensures forall i :: 0 <= i < |rows| ==> id(rows[i]) < r
  {
    if |rows| == 0 then 1
    else
      var rest := NextId(rows[1..], id);
      if id(rows[0]) < rest then rest else id(rows[0]) + 1
  }

  /** `SELECT … FROM products WHERE id = ?`: the first product with that id, if any. */
  function FindProduct(products: seq<Product>, id: int): (r: Option<Product>)
    ensures r.Some? <==> exists i :: 0 <= i < |products| && products[i].id == id
    ensures r.Some? ==> r.value in products && r.value.id == id
  {
    if |products| == 0 then None
    else if products[0].id == id then Some(products[0])
    else
      var r := FindProduct(products[1..], id);
      assert forall i :: 1 <= i < |products| ==> products[i] == products[1..][i - 1];
      r
  }

  /** Units of `productId` on hand, summed over all of its batches. */
  function OnHand(batches: seq<Batch>, productId: int): (r: int)
    ensures (forall k :: 0 <= k < |batches| ==> batches[k].productId != productId) ==> r == 0
    ensures (forall k :: 0 <= k < |batches| ==> batches[k].qtyOnHand >= 0) ==> r >= 0
  {
    if |batches| == 0 then 0
    else
      assert forall k :: 0 <= k < |batches[1..]| ==> batches[1..][k] == batches[k + 1];
      (if batches[0].productId == productId then batches[0].qtyOnHand else 0)
      + OnHand(batches[1..], productId)
  }

  /** `SUM(line_total)` over sale items. */
  function LineTotals(items: seq<SaleItem>): int
  {
    if |items| == 0 then 0 else items[0].lineTotal + LineTotals(items[1..])
  }
}

=== FILE: products.dfy ===
/** The product listing and product creation, server/controllers/productController.ts.

    The listing is a `LEFT JOIN` of products with their batches grouped by product: every
    product gets one row with its stock totals and an expiry warning flag. */
module Products {
  import opened Results
  import opened Domain
  import Sequences
  import Stock
  import Checkout

  /** How far ahead `date('now', '+60 days')` looks for expiring stock. */
  const ExpiryHorizon: int := 60

  /** One row of `getProducts`. `hasExpiringBatch` is the SQL `MAX` of a 0/1 `CASE`. */
  datatype ProductRow = ProductRow(product: Product, totalQty: int, usableQty: int, hasExpiringBatch: int)

  /** A batch that expires after `today` and no later than the horizon. */
  predicate Expiring(b: Batch, today: Day)
  {
    today < b.expiry <= today + ExpiryHorizon
  }

  /** `SUM(CASE WHEN expiry_date > date('now') THEN qty_on_hand ELSE 0 END)`: units of the
      product in batches that have not expired. */
  function UsableQty(batches: seq<Batch>, productId: int, today: Day): (r: int)
    ensures (forall k :: 0 <= k < |batches| && batches[k].productId == productId ==> batches[k].expiry > today)
            ==> r == OnHand(batches, productId)
    ensures (forall k :: 0 <= k < |batches| && batches[k].productId == productId ==> batches[k].expiry <= today)
            ==> r == 0
  {
    if |batches| == 0 then 0
    else
      assert forall k :: 0 <= k < |batches[1..]| ==> batches[1..][k] == batches[k + 1];
      (if batches[0].productId == productId && batches[0].expiry > today then batches[0].qtyOnHand else 0)
      + UsableQty(batches[1..], productId, today)
  }

  /** `MAX(CASE WHEN … THEN 1 ELSE 0 END)` over the product's batches; 0 without batches. */
  function ExpiringFlag(batches: seq<Batch>, productId: int, today: Day): (r: int)
    ensures r == 0 || r == 1
    ensures r == 1 <==> exists k :: 0 <= k < |batches| && batches[k].productId == productId
                                    && Expiring(batches[k], today)
  {
    if |batches| == 0 then 0
    else
      var rest := ExpiringFlag(batches[1..], productId, today);
      assert forall k :: 1 <= k < |batches| ==> batches[k] == batches[1..][k - 1];
      if batches[0].productId == productId && Expiring(batches[0], today) then 1 else rest
  }

  function Row(p: Product, batches: seq<Batch>, today: Day): ProductRow
  {
    ProductRow(p, OnHand(batches, p.id), UsableQty(batches, p.id, today), ExpiringFlag(batches, p.id, today))
  }

  /** `getProducts`: one row per product, batches or not, in table order. */
  function ListProducts(products: seq<Product>, batches: seq<Batch>, today: Day): (r: seq<ProductRow>)
    ensures |r| == |products|
    ensures forall i :: 0 <= i < |r| ==> r[i] == Row(products[i], batches, today)
  {
    if |products| == 0 then []
    else [Row(products[0], batches, today)] + ListProducts(products[1..], batches, today)
  }

  /** Usable stock never exceeds total stock, as long as no batch is negative. */
  lemma {:induction false} UsableAtMostTotal(batches: seq<Batch>, productId: int, today: Day)
    requires Stock.NonNegativeStock(batches)
    ensures 0 <= UsableQty(batches, productId, today) <= OnHand(batches, productId)
    decreases |batches|
  {
    if |batches| > 0 {
      assert Stock.NonNegativeStock(batches[1..]) by {
        forall k | 0 <= k < |batches[1..]| ensures batches[1..][k].qtyOnHand >= 0 {
          assert batches[1..][k] == batches[k + 1];
        }
      }
      UsableAtMostTotal(batches[1..], productId, today);
    }
  }

  /** A product without batches is listed with zero stock and no warning. */
  lemma {:induction false} NoBatchesNoStock(batches: seq<Batch>, productId: int, today: Day)
    requires forall k :: 0 <= k < |batches| ==> batches[k].productId != productId
    ensures OnHand(batches, productId) == 0
    ensures UsableQty(batches, productId, today) == 0
    ensures ExpiringFlag(batches, productId, today) == 0
    decreases |batches|
  {
    if |batches| > 0 {
      assert forall k :: 0 <= k < |batches[1..]| ==> batches[1..][k] == batches[k + 1];
      NoBatchesNoStock(batches[1..], productId, today);
    }
  }

  lemma {:induction false} UsableAppend(batches: seq<Batch>, b: Batch, productId: int, today: Day)
    ensures UsableQty(batches + [b], productId, today)
            == UsableQty(batches, productId, today)
               + (if b.productId == productId && b.expiry > today then b.qtyOnHand else 0)
    ensures OnHand(batches + [b], productId)
            == OnHand(batches, productId) + (if b.productId == productId then b.qtyOnHand else 0)
    decreases |batches|
  {
    if |batches| == 0 {
      assert [b][1..] == [];
    } else {
      assert (batches + [b])[1..] == batches[1..] + [b];
      UsableAppend(batches[1..], b, productId, today);
    }
  }

  /** An accepted receipt adds its quantity to the product's total and usable stock (its
      expiry is in the future) and leaves every other product's row alone; the product is
      flagged as expiring from then on exactly when the new batch expires within the horizon
      or it was flagged before. */
  lemma ReceiptUpdatesListing(db: Store, req: Stock.ReceiptRequest, today: Day, receivedAt: Instant,
                              p: int)
    requires Stock.ReceiveStock(db, req, today, receivedAt).Ok?
    ensures var batches' := Stock.ReceiveStock(db, req, today, receivedAt).value.0.batches;
            var delta := if p == req.productId then req.qty else 0;
            && OnHand(batches', p) == OnHand(db.batches, p) + delta
            && UsableQty(batches', p, today) == UsableQty(db.batches, p, today) + delta
            && (ExpiringFlag(batches', p, today) == 1 <==>
                  ExpiringFlag(db.batches, p, today) == 1
                  || (p == req.productId && req.expiry.value <= today + ExpiryHorizon))
  {
    var (db', id) := Stock.ReceiveStock(db, req, today, receivedAt).value;
    var b := Stock.ReceivedBatch(id, req, receivedAt);
    UsableAppend(db.batches, b, p, today);
    assert db'.batches == db.batches + [b];
    var n := |db.batches|;
    if ExpiringFlag(db.batches, p, today) == 1 {
      var k :| 0 <= k < n && db.batches[k].productId == p && Expiring(db.batches[k], today);
      assert db'.batches[k] == db.batches[k];
    }
    if p == req.productId && req.expiry.value <= today + ExpiryHorizon {
      assert db'.batches[n] == b;
    }
    if ExpiringFlag(db'.batches, p, today) == 1 {
      var k :| 0 <= k < |db'.batches| && db'.batches[k].productId == p && Expiring(db'.batches[k], today);
      if k < n {
        assert db'.batches[k] == db.batches[k];
      }
    }
  }

  /** A committed checkout lowers each product's listed total by exactly what the cart asked
      for of it. */
  lemma CheckoutUpdatesListing(db: Store, items: Option<seq<Checkout.CartLine>>,
                               payment: Option<Checkout.PaymentInput>, invoiceNo: string, soldAt: string,
                               today: Day)
    requires Sequences.DistinctBy(db.batches, BatchKey)
    requires Checkout.Checkout(db, items, payment, invoiceNo, soldAt).Ok?
    ensures var db' := Checkout.Checkout(db, items, payment, invoiceNo, soldAt).value.0;
            var before := ListProducts(db.products, db.batches, today);
            var after := ListProducts(db'.products, db'.batches, today);
            && |after| == |before|
            && forall i :: 0 <= i < |after| ==>
                 && after[i].product == before[i].product
                 && after[i].totalQty == before[i].totalQty - Checkout.Demand(items.value, before[i].product.id)
  {
    var db' := Checkout.Checkout(db, items, payment, invoiceNo, soldAt).value.0;
    forall i | 0 <= i < |db.products|
      ensures OnHand(db'.batches, db.products[i].id) == OnHand(db.batches, db.products[i].id)
                - Checkout.Demand(items.value, db.products[i].id)
    {
      Checkout.CheckoutConserves(db, items, payment, invoiceNo, soldAt, db.products[i].id);
    }
  }

  // ---------------------------------------------------------------------------------------
  // Creating a product
  // ---------------------------------------------------------------------------------------

  /** The body of `POST /products`; missing text is the empty string or `None`, a missing
      number is 0. */
  datatype ProductRequest = ProductRequest(
    nameMm: string,
    nameEn: Option<string>,
    barcode: Option<string>,
    salePrice: int,
    reorderLevel: int)

  datatype ProductError = MissingNameOrPrice   // 400 "Name (MM) and Sale Price are required"

  /** The reorder level used when the request gives a falsy one. */
  const DefaultReorderLevel: int := 10

  /** `createProduct`: refuses a request without a Myanmar name or with a falsy sale price,
      otherwise inserts the product, with the reorder level defaulted, and answers its id. */
  function CreateProduct(db: Store, req: ProductRequest): (r: Result<(Store, int), ProductError>)
    ensures r.Err? <==> req.nameMm == "" || req.salePrice == 0
    ensures r.Ok? ==>
              var (db', id) := r.value;
              && |db'.products| == |db.products| + 1
              && var p := db'.products[|db.products|];
              && db' == db.(products := db.products + [p])
              && p.id == id && p.nameMm == req.nameMm && p.nameEn == req.nameEn
              && p.barcode == req.barcode && p.salePrice == req.salePrice
              && (req.reorderLevel != 0 ==> p.reorderLevel == req.reorderLevel)
              && (req.reorderLevel == 0 ==> p.reorderLevel == DefaultReorderLevel)
              && forall i :: 0 <= i < |db.products| ==> db.products[i].id < id
  {
    if req.nameMm == "" || req.salePrice == 0 then Err(MissingNameOrPrice)
    else
      var id := NextId(db.products, ProductKey);
      var level := if req.reorderLevel != 0 then req.reorderLevel else DefaultReorderLevel;
      var p := Product(id, req.nameMm, req.nameEn, req.barcode, req.salePrice, level);
      Ok((db.(products := db.products + [p]), id))
  }

  /** When the foreign key holds, a new product is listed with zero stock and no expiry
      warning: no batch can reference an id that was not in use. */
  lemma NewProductListedEmpty(db: Store, req: ProductRequest, today: Day)
    requires Stock.ProductsKnown(db)
    requires CreateProduct(db, req).Ok?
    ensures var (db', id) := CreateProduct(db, req).value;
            var rows := ListProducts(db'.products, db'.batches, today);
            && |rows| == |db.products| + 1
            && rows[|rows| - 1].product.id == id
            && rows[|rows| - 1].totalQty == 0
            && rows[|rows| - 1].usableQty == 0
            && rows[|rows| - 1].hasExpiringBatch == 0
  {
    var (db', id) := CreateProduct(db, req).value;
    forall k | 0 <= k < |db.batches| ensures db.batches[k].productId != id {
      var p := FindProduct(db.products, db.batches[k].productId).value;
      assert p in db.products;
    }
    NoBatchesNoStock(db.batches, id, today);
  }
}

=== FILE: reports.dfy ===
/** The read-side reports of server/controllers/reportController.ts: the all-time profit and
    the daily cash ledger. */
module Reports {
  import opened Results
  import opened Domain
  import opened Sequences
  import Allocation
  import Checkout

  // ---------------------------------------------------------------------------------------
  // Profit
  // ---------------------------------------------------------------------------------------

  /** What one sale item earned over the cost snapshotted when it was sold. */
  function Margin(item: SaleItem): int
  {
    item.lineTotal - item.costAtSale * item.qty
  }

  function CostOf(item: SaleItem): int
  {
    item.costAtSale * item.qty
  }

  /** `getProfit`: `SUM(line_total) - SUM(cost_at_sale * qty)` over all sale items. Both sums
      are NULL over an empty table and the handler turns the NULL into 0. */
  function Profit(items: seq<SaleItem>): (r: int)
    ensures r == SumOf(items, Margin)
  {
    if |items| == 0 then 0
    else
      ProfitIsMargins(items);
      LineTotals(items) - SumOf(items, CostOf)
  }

  lemma {:induction false} ProfitIsMargins(items: seq<SaleItem>)
    ensures LineTotals(items) - SumOf(items, CostOf) == SumOf(items, Margin)
    decreases |items|
  {
    if |items| > 0 {
      ProfitIsMargins(items[1..]);
    }
  }

  /** Profit is additive over the rows of `sale_items`. */
  lemma ProfitAppend(a: seq<SaleItem>, b: seq<SaleItem>)
    ensures Profit(a + b) == Profit(a) + Profit(b)
  {
    SumOfAppend(a, b, Margin);
  }

  /** What the new items of a sale earn: units times the difference between the sale price
      and the cost snapshotted from the batch. */
  function UnitMargin(item: SaleItem): int
  {
    item.qty * (item.unitPrice - item.costAtSale)
  }

  lemma {:induction false} RecordedMargins(items: seq<SaleItem>, saleId: int, products: seq<Product>,
                                          batches: seq<Batch>)
    requires Checkout.ItemsRecorded(items, saleId, products, batches)
    ensures SumOf(items, Margin) == SumOf(items, UnitMargin)
    decreases |items|
  {
    if |items| > 0 {
      assert Checkout.ItemsRecorded(items[1..], saleId, products, batches) by {
        forall k | 0 <= k < |items[1..]| ensures items[1..][k] == items[k + 1] {}
      }
      RecordedMargins(items[1..], saleId, products, batches);
    }
  }

  /** A committed checkout raises the reported profit by what its items earn at their sale
      price over their batches' cost: the report relies only on the cost captured at sale. */
  lemma ProfitAfterCheckout(db: Store, items: Option<seq<Checkout.CartLine>>,
                            payment: Option<Checkout.PaymentInput>, invoiceNo: string, soldAt: string)
    requires DistinctBy(db.batches, BatchKey)
    requires Checkout.Checkout(db, items, payment, invoiceNo, soldAt).Ok?
    ensures var (db', receipt) := Checkout.Checkout(db, items, payment, invoiceNo, soldAt).value;
            var added := db'.saleItems[|db.saleItems|..];
            Profit(db'.saleItems) == Profit(db.saleItems) + SumOf(added, UnitMargin)
  {
    var (db', receipt) := Checkout.Checkout(db, items, payment, invoiceNo, soldAt).value;
    var added := db'.saleItems[|db.saleItems|..];
    Checkout.CheckoutRecords(db, items, payment, invoiceNo, soldAt);
    assert db'.saleItems == db.saleItems + added;
    ProfitAppend(db.saleItems, added);
    RecordedMargins(added, receipt.saleId, db.products, db.batches);
  }

  /** Items of one product all sold at one price from one cost: the margin is the units sold
      times the unit margin, and the line totals are the units sold times the price. */
  lemma {:induction false} UniformItems(items: seq<SaleItem>, p: int, price: int, cost: int)
    requires forall k :: 0 <= k < |items| ==>
               && items[k].productId == p && items[k].unitPrice == price && items[k].costAtSale == cost
               && items[k].lineTotal == items[k].qty * items[k].unitPrice
    ensures SumOf(items, UnitMargin) == Checkout.ItemQty(items, p) * (price - cost)
    ensures LineTotals(items) == Checkout.ItemQty(items, p) * price
    decreases |items|
  {
    if |items| > 0 {
      UniformItems(items[1..], p, price, cost);
      assert items[0].qty * (price - cost) + Checkout.ItemQty(items[1..], p) * (price - cost)
          == (items[0].qty + Checkout.ItemQty(items[1..], p)) * (price - cost);
      assert items[0].qty * price + Checkout.ItemQty(items[1..], p) * price
          == (items[0].qty + Checkout.ItemQty(items[1..], p)) * price;
    }
  }

  /** Items recorded against a table of one batch all come from that batch. */
  lemma RecordedFromOneBatch(items: seq<SaleItem>, saleId: int, products: seq<Product>, b: Batch)
    requires Checkout.ItemsRecorded(items, saleId, products, [b])
    ensures forall k :: 0 <= k < |items| ==>
              && items[k].productId == b.productId && items[k].costAtSale == b.costPrice
              && items[k].lineTotal == items[k].qty * items[k].unitPrice
              && items[k].unitPrice == FindProduct(products, b.productId).value.salePrice
  {
    forall k | 0 <= k < |items|
      ensures items[k].productId == b.productId && items[k].costAtSale == b.costPrice
    {
      assert Checkout.FromTable(items[k], [b]);
    }
  }

  /** The worked example: three units sold at 1000 from a batch that cost 700 each raise the
      reported profit by 3 * (1000 - 700) = 900, and the sale's total is 3000. */
  lemma ProfitExample(invoiceNo: string, soldAt: string)
    ensures var db := Store([Product(1, "Paracetamol", None, None, 1000, 10)],
                            [Batch(1, 1, "B-1", 30, 700, 5, 0)], [], [], [], []);
            var r := Checkout.Checkout(db, Some([Checkout.CartLine(1, 3)]),
                                       Some(Checkout.PaymentInput("CASH", 3000)), invoiceNo, soldAt);
            && r.Ok?
            && r.value.1.total == 3000
            && Profit(r.value.0.saleItems) == Profit(db.saleItems) + 900
  {
    var product := Product(1, "Paracetamol", None, None, 1000, 10);
    var batch := Batch(1, 1, "B-1", 30, 700, 5, 0);
    var db := Store([product], [batch], [], [], [], []);
    var lines := [Checkout.CartLine(1, 3)];
    var items := Some(lines);
    var payment := Some(Checkout.PaymentInput("CASH", 3000));
    ExampleCommits(product, batch, lines, invoiceNo, soldAt);
    ExampleItems(product, batch, lines, invoiceNo, soldAt);
    ProfitAfterCheckout(db, items, payment, invoiceNo, soldAt);
  }

  /** In the worked example the sale's new items earn 900 over cost and total 3000. */
  lemma ExampleItems(product: Product, batch: Batch, lines: seq<Checkout.CartLine>,
                     invoiceNo: string, soldAt: string)
    requires product == Product(1, "Paracetamol", None, None, 1000, 10)
    requires batch == Batch(1, 1, "B-1", 30, 700, 5, 0)
    requires lines == [Checkout.CartLine(1, 3)]
    requires Checkout.Checkout(Store([product], [batch], [], [], [], []), Some(lines),
                               Some(Checkout.PaymentInput("CASH", 3000)), invoiceNo, soldAt).Ok?
    ensures var (db', receipt) := Checkout.Checkout(Store([product], [batch], [], [], [], []), Some(lines),
                                                    Some(Checkout.PaymentInput("CASH", 3000)), invoiceNo, soldAt).value;
            SumOf(db'.saleItems, UnitMargin) == 900 && receipt.total == 3000
  {
    var db := Store([product], [batch], [], [], [], []);
    var items := Some(lines);
    var payment := Some(Checkout.PaymentInput("CASH", 3000));
    var (db', receipt) := Checkout.Checkout(db, items, payment, invoiceNo, soldAt).value;
    var added := db'.saleItems[|db.saleItems|..];
    assert added == db'.saleItems;
    Checkout.CheckoutRecords(db, items, payment, invoiceNo, soldAt);
    Checkout.CheckoutConserves(db, items, payment, invoiceNo, soldAt, 1);
    RecordedFromOneBatch(added, receipt.saleId, db.products, batch);
    assert FindProduct(db.products, 1).value == product;
    UniformItems(added, 1, 1000, 700);
  }

  lemma ExampleCommits(product: Product, batch: Batch, lines: seq<Checkout.CartLine>,
                       invoiceNo: string, soldAt: string)
    requires product == Product(1, "Paracetamol", None, None, 1000, 10)
    requires batch == Batch(1, 1, "B-1", 30, 700, 5, 0)
    requires lines == [Checkout.CartLine(1, 3)]
    ensures Checkout.Checkout(Store([product], [batch], [], [], [], []), Some(lines),
                              Some(Checkout.PaymentInput("CASH", 3000)), invoiceNo, soldAt).Ok?
  {
    var db := Store([product], [batch], [], [], [], []);
    assert Checkout.AllKnown(db.products, lines) by {
      assert FindProduct(db.products, 1).Some?;
    }
    assert Checkout.Fits(db.batches, lines) by {
      forall q ensures Checkout.Demand(lines, q) <= Allocation.AvailableQty(db.batches, q) {
        assert Allocation.AvailableQty(db.batches, 1) == 5;
      }
    }
    Checkout.CheckoutSucceedsIff(db, Some(lines), Some(Checkout.PaymentInput("CASH", 3000)), invoiceNo, soldAt);
  }

  // ---------------------------------------------------------------------------------------
  // SQL LIKE
  // ---------------------------------------------------------------------------------------

  /** SQLite folds only the ASCII letters when it compares with LIKE. */
  function FoldCase(c: char): char
  {
    if 'A' <= c <= 'Z' then (c as int + 32) as char else c
  }

  /** SQLite's `s LIKE pattern` without an ESCAPE clause: `%` matches any run of characters,
      `_` matches any one character, and letters match regardless of ASCII case. */
  predicate Like(s: string, pattern: string)
    ensures Literal(pattern) ==> (Like(s, pattern) <==> |s| == |pattern| && StartsWithFolded(s, pattern))
    decreases |s| + |pattern|
  {
    if |pattern| == 0 then |s| == 0
    else if pattern[0] == '%' then Like(s, pattern[1..]) || (|s| > 0 && Like(s[1..], pattern))
    else if |s| == 0 then false
    else
      FoldedStep(s, pattern);
      (pattern[0] == '_' || FoldCase(pattern[0]) == FoldCase(s[0])) && Like(s[1..], pattern[1..])
  }

  /** Comparing without case, character by character, peels off the first character. */
  lemma FoldedStep(s: string, p: string)
    requires |s| > 0 && |p| > 0
    ensures Literal(p) ==> Literal(p[1..])
    ensures (|s| == |p| && StartsWithFolded(s, p))
            <==> FoldCase(p[0]) == FoldCase(s[0]) && |s[1..]| == |p[1..]| && StartsWithFolded(s[1..], p[1..])
  {
    if Literal(p) {
      forall i | 0 <= i < |p[1..]| ensures p[1..][i] != '%' && p[1..][i] != '_' {
        assert p[1..][i] == p[i + 1];
      }
    }
    if FoldCase(p[0]) == FoldCase(s[0]) && StartsWithFolded(s[1..], p[1..]) {
      forall i | 0 <= i < |p| ensures FoldCase(s[i]) == FoldCase(p[i]) {
        if i > 0 {
          assert s[1..][i - 1] == s[i] && p[1..][i - 1] == p[i];
        }
      }
    }
    if StartsWithFolded(s, p) && |p| <= |s| {
      forall i | 0 <= i < |p| - 1 ensures FoldCase(s[1..][i]) == FoldCase(p[1..][i]) {
        assert s[1..][i] == s[i + 1] && p[1..][i] == p[i + 1];
      }
    }
  }

  /** The pattern holds no wildcard character. */
  predicate Literal(p: string)
  {
    forall i :: 0 <= i < |p| ==> p[i] != '%' && p[i] != '_'
  }

  /** `s` begins with `p` when ASCII letters are compared without case. */
  predicate StartsWithFolded(s: string, p: string)
  {
    |p| <= |s| && forall i :: 0 <= i < |p| ==> FoldCase(s[i]) == FoldCase(p[i])
  }

  lemma {:induction false} LikeAnything(s: string)
    ensures Like(s, "%")
    decreases |s|
  {
    if |s| > 0 {
      LikeAnything(s[1..]);
    }
  }

  /** `LIKE 'date%'` for a date without wildcards is a prefix test that ignores ASCII case. */
  lemma {:induction false} LikePrefix(s: string, p: string)
    requires Literal(p)
    ensures Like(s, p + "%") <==> StartsWithFolded(s, p)
    decreases |p|
  {
    if |p| == 0 {
      assert p + "%" == "%";
      LikeAnything(s);
    } else {
      assert (p + "%")[0] == p[0];
      assert (p + "%")[1..] == p[1..] + "%";
      if |s| > 0 {
        LikePrefix(s[1..], p[1..]);
        if StartsWithFolded(s[1..], p[1..]) && FoldCase(p[0]) == FoldCase(s[0]) {
          forall i | 0 <= i < |p| ensures FoldCase(s[i]) == FoldCase(p[i]) {
            if i > 0 {
              assert s[1..][i - 1] == s[i] && p[1..][i - 1] == p[i];
            }
          }
        }
        if StartsWithFolded(s, p) {
          forall i | 0 <= i < |p| - 1 ensures FoldCase(s[1..][i]) == FoldCase(p[1..][i]) {
            assert s[1..][i] == s[i + 1] && p[1..][i] == p[i + 1];
          }
        }
      }
    }
  }

  /** A date of digits and dashes, such as `2025-01-31`. */
  predicate DateLike(p: string)
  {
    forall i :: 0 <= i < |p| ==> p[i] == '-' || '0' <= p[i] <= '9'
  }

  /** For a `YYYY-MM-DD` style date the ledger's filter is exactly "the timestamp starts
      with the date". */
  lemma DatePrefix(s: string, date: string)
    requires DateLike(date)
    ensures Like(s, date + "%") <==> |date| <= |s| && s[..|date|] == date
  {
    LikePrefix(s, date);
    if StartsWithFolded(s, date) {
      forall i | 0 <= i < |date| ensures s[i] == date[i] {
        assert FoldCase(s[i]) == FoldCase(date[i]);
      }
    }
  }

  // ---------------------------------------------------------------------------------------
  // The daily ledger
  // ---------------------------------------------------------------------------------------

  datatype EntryType = IncomeRow | ExpenseRow

  /** One row of the ledger's `items`. */
  datatype LedgerEntry = LedgerEntry(id: int, time: string, entryType: EntryType, particulars: string, amount: int)

  datatype LedgerSummary = LedgerSummary(totalIncome: int, totalExpense: int, netCash: int)

  datatype Ledger = Ledger(items: seq<LedgerEntry>, summary: LedgerSummary)

  datatype LedgerError = MissingDate   // 400 "Date parameter is required"

  /** A sale as an INCOME row: `'Sale #' || invoice_no`, for the sale's total. */
  function FromSale(s: Sale): LedgerEntry
  {
    LedgerEntry(s.id, s.soldAt, IncomeRow, "Sale #" + s.invoiceNo, s.total)
  }

  function FromExpense(e: Expense): LedgerEntry
  {
    LedgerEntry(e.id, e.spentAt, ExpenseRow, e.particulars, e.amount)
  }

  function SalesOn(sales: seq<Sale>, pattern: string): (r: seq<LedgerEntry>)
    ensures |r| <= |sales|
    ensures forall k :: 0 <= k < |r| ==> r[k].entryType == IncomeRow
    ensures forall s :: s in sales && Like(s.soldAt, pattern) ==> FromSale(s) in r
    ensures forall e :: e in r ==> exists s :: s in sales && Like(s.soldAt, pattern) && e == FromSale(s)
  {
    if |sales| == 0 then []
    else
      var rest := SalesOn(sales[1..], pattern);
      assert forall s :: s in sales[1..] ==> s in sales;
      assert forall s :: s in sales ==> s == sales[0] || s in sales[1..];
      if Like(sales[0].soldAt, pattern) then [FromSale(sales[0])] + rest else rest
  }

  function ExpensesOn(expenses: seq<Expense>, pattern: string): (r: seq<LedgerEntry>)
    ensures |r| <= |expenses|
    ensures forall k :: 0 <= k < |r| ==> r[k].entryType == ExpenseRow
    ensures forall x :: x in expenses && Like(x.spentAt, pattern) ==> FromExpense(x) in r
    ensures forall e :: e in r ==> exists x :: x in expenses && Like(x.spentAt, pattern) && e == FromExpense(x)
  {
    if |expenses| == 0 then []
    else
      var rest := ExpensesOn(expenses[1..], pattern);
      assert forall x :: x in expenses[1..] ==> x in expenses;
      assert forall x :: x in expenses ==> x == expenses[0] || x in expenses[1..];
      if Like(expenses[0].spentAt, pattern) then [FromExpense(expenses[0])] + rest else rest
  }

  function Amount(e: LedgerEntry): int { e.amount }

  /** An entry's effect on the cash drawer: income in, expense out. */
  function CashEffect(e: LedgerEntry): int
  {
    if e.entryType == IncomeRow then e.amount else -e.amount
  }

  /** `getLedger`. `instant` is what `new Date(time).getTime()` makes of a timestamp; the
      merged rows are sorted by it with JavaScript's stable sort. */
  function GetLedger(db: Store, date: Option<string>, instant: string -> int): (r: Result<Ledger, LedgerError>)
    ensures r.Err? <==> date.None? || date.value == ""
    ensures r.Ok? ==>
              var pattern := date.value + "%";
              var items := r.value.items;
              && SortedBy(items, (e: LedgerEntry) => instant(e.time))
              && (forall s :: s in db.sales && Like(s.soldAt, pattern) ==> FromSale(s) in items)
              && (forall x :: x in db.expenses && Like(x.spentAt, pattern) ==> FromExpense(x) in items)
              && (forall e :: e in items ==>
                    || (exists s :: s in db.sales && Like(s.soldAt, pattern) && e == FromSale(s))
                    || (exists x :: x in db.expenses && Like(x.spentAt, pattern) && e == FromExpense(x)))
              && multiset(items) == multiset(SalesOn(db.sales, pattern) + ExpensesOn(db.expenses, pattern))
  {
    if date.None? || date.value == "" then Err(MissingDate)
    else
      var pattern := date.value + "%";
      var sales := SalesOn(db.sales, pattern);
      var expenses := ExpensesOn(db.expenses, pattern);
      var items := SortBy(sales + expenses, (e: LedgerEntry) => instant(e.time));
      assert forall e :: e in items <==> e in sales + expenses by {
        assert forall e :: e in items <==> e in multiset(items);
        assert forall e :: e in sales + expenses <==> e in multiset(sales + expenses);
      }
      var income := SumOf(sales, Amount);
      var expense := SumOf(expenses, Amount);
      Ok(Ledger(items, LedgerSummary(income, expense, income - expense)))
  }

  lemma {:induction false} SumOfSalesOn(sales: seq<Sale>, pattern: string)
    ensures SumOf(SalesOn(sales, pattern), Amount) == SumOf(Filter(sales, (s: Sale) => Like(s.soldAt, pattern)), SaleTotal)
    decreases |sales|
  {
    if |sales| > 0 {
      SumOfSalesOn(sales[1..], pattern);
    }
  }

  function SaleTotal(s: Sale): int { s.total }

  function ExpenseAmount(x: Expense): int { x.amount }

  lemma {:induction false} SumOfExpensesOn(expenses: seq<Expense>, pattern: string)
    ensures SumOf(ExpensesOn(expenses, pattern), Amount)
            == SumOf(Filter(expenses, (x: Expense) => Like(x.spentAt, pattern)), ExpenseAmount)
    decreases |expenses|
  {
    if |expenses| > 0 {
      SumOfExpensesOn(expenses[1..], pattern);
    }
  }

  lemma {:induction false} CashOfIncome(rows: seq<LedgerEntry>)
    requires forall k :: 0 <= k < |rows| ==> rows[k].entryType == IncomeRow
    ensures SumOf(rows, CashEffect) == SumOf(rows, Amount)
    decreases |rows|
  {
    if |rows| > 0 {
      CashOfIncome(rows[1..]);
    }
  }

  lemma {:induction false} CashOfExpenses(rows: seq<LedgerEntry>)
    requires forall k :: 0 <= k < |rows| ==> rows[k].entryType == ExpenseRow
    ensures SumOf(rows, CashEffect) == -SumOf(rows, Amount)
    decreases |rows|
  {
    if |rows| > 0 {
      CashOfExpenses(rows[1..]);
    }
  }

  /** The summary agrees with the rows: income is the total of the day's sales, expense is
      the total of the day's expenses, the listed rows are exactly as many as those sales and
      expenses together, and the net cash is what the listed rows put into the drawer. */
  lemma LedgerSummaryAgrees(db: Store, date: Option<string>, instant: string -> int)
    requires date.Some? && date.value != ""
    ensures var pattern := date.value + "%";
            var daySales := Filter(db.sales, (s: Sale) => Like(s.soldAt, pattern));
            var dayExpenses := Filter(db.expenses, (x: Expense) => Like(x.spentAt, pattern));
            var ledger := GetLedger(db, date, instant).value;
            && ledger.summary.totalIncome == SumOf(daySales, SaleTotal)
            && ledger.summary.totalExpense == SumOf(dayExpenses, ExpenseAmount)
            && ledger.summary.netCash == ledger.summary.totalIncome - ledger.summary.totalExpense
            && ledger.summary.netCash == SumOf(ledger.items, CashEffect)
            && |ledger.items| == |daySales| + |dayExpenses|
  {
    var pattern := date.value + "%";
    var sales := SalesOn(db.sales, pattern);
    var expenses := ExpensesOn(db.expenses, pattern);
    var key := (e: LedgerEntry) => instant(e.time);
    SumOfSalesOn(db.sales, pattern);
    SumOfExpensesOn(db.expenses, pattern);
    SumOfSortBy(sales + expenses, key, CashEffect);
    SumOfAppend(sales, expenses, CashEffect);
    CashOfIncome(sales);
    CashOfExpenses(expenses);
    SalesOnCount(db.sales, pattern);
    ExpensesOnCount(db.expenses, pattern);
  }

  lemma {:induction false} SalesOnCount(sales: seq<Sale>, pattern: string)
    ensures |SalesOn(sales, pattern)| == |Filter(sales, (s: Sale) => Like(s.soldAt, pattern))|
    decreases |sales|
  {
    if |sales| > 0 {
      SalesOnCount(sales[1..], pattern);
    }
  }

  lemma {:induction false} ExpensesOnCount(expenses: seq<Expense>, pattern: string)
    ensures |ExpensesOn(expenses, pattern)| == |Filter(expenses, (x: Expense) => Like(x.spentAt, pattern))|
    decreases |expenses|
  {
    if |expenses| > 0 {
      ExpensesOnCount(expenses[1..], pattern);
    }
  }
}

=== FILE: results.dfy ===
/** Failure-carrying values shared by every module of the model. */
module Results {

  /** A value that may be absent: a missing request field, a lookup that found nothing. */
  datatype Option<+T> = None | Some(value: T)

  /** The outcome of an operation that either succeeds with a value or fails with an error.
      A failed database transaction is an `Err`: the caller keeps its previous state. */
  datatype Result<+T, +E> = Ok(value: T) | Err(error: E)
}

=== FILE: sequences.dfy ===
/** Keyed sequences: sums, filters, primary-key distinctness and a stable sort by an integer key.

    Both SQL `ORDER BY` (the FEFO batch query, the stock history) and the JavaScript
    `Array.prototype.sort` used by the daily ledger are modelled by `SortBy`, an insertion
    sort that keeps rows with equal keys in their input order. */
module Sequences {

  /** Keys never decrease along `s`. */
  predicate SortedBy<T>(s: seq<T>, key: T -> int)
  {
    forall i, j :: 0 <= i < j < |s| ==> key(s[i]) <= key(s[j])
  }

  /** No two elements of `s` share a value of `f` (a primary key, for instance). */
  predicate DistinctBy<T>(s: seq<T>, f: T -> int)
  {
    forall i, j :: 0 <= i < j < |s| ==> f(s[i]) != f(s[j])
  }

  /** Sum of `f` over the elements of `s`. */
  function SumOf<T>(s: seq<T>, f: T -> int): int
  {
    if |s| == 0 then 0 else f(s[0]) + SumOf(s[1..], f)
  }

  /** In a sorted sequence an element with a strictly smaller key comes first. */
  lemma SortedBefore<T>(s: seq<T>, key: T -> int, m: int, k: int)
    requires SortedBy(s, key)
    requires 0 <= m < |s| && 0 <= k < |s|
    requires key(s[m]) < key(s[k])
    ensures m < k
  {
  }

  /** Places `x` in front of the first element whose key is not smaller. */
  function Insert<T>(x: T, s: seq<T>, key: T -> int): (r: seq<T>)
    ensures |r| == |s| + 1
    ensures multiset(r) == multiset{x} + multiset(s)
    ensures SortedBy(s, key) ==> SortedBy(r, key)
  {
    if |s| == 0 || key(x) <= key(s[0]) then
      var r := [x] + s;
      assert SortedBy(s, key) ==> SortedBy(r, key) by {
        if SortedBy(s, key) {
          forall i, j | 0 <= i < j < |r| ensures key(r[i]) <= key(r[j]) {
            if i == 0 && j > 1 {
              assert r[j] == s[j - 1];
            }
          }
        }
      }
      r
    else
      var rest := Insert(x, s[1..], key);
      var r := [s[0]] + rest;
      assert SortedBy(s, key) ==> SortedBy(r, key) by {
        if SortedBy(s, key) {
          forall i, j | 0 <= i < j < |r| ensures key(r[i]) <= key(r[j]) {
            if i == 0 {
              var y := r[j];
              assert y == rest[j - 1];
              assert y in multiset(rest);
              if y != x {
                assert y in multiset(s[1..]);
                var k :| 0 <= k < |s[1..]| && s[1..][k] == y;
                assert s[k + 1] == y;
              }
            } else {
              assert r[i] == rest[i - 1] && r[j] == rest[j - 1];
            }
          }
        }
      }
      assert s == [s[0]] + s[1..];
      r
  }

  /** Insertion sort; rows with equal keys keep their input order. */
  function SortBy<T>(s: seq<T>, key: T -> int): (r: seq<T>)
    ensures SortedBy(r, key)
    ensures multiset(r) == multiset(s)
    ensures |r| == |s|
  {
    if |s| == 0 then []
    else
      assert s == [s[0]] + s[1..];
      Insert(s[0], SortBy(s[1..], key), key)
  }

  lemma {:induction false} SumOfInsert<T>(x: T, s: seq<T>, key: T -> int, f: T -> int)
    ensures SumOf(Insert(x, s, key), f) == f(x) + SumOf(s, f)
    decreases |s|
  {
    if |s| == 0 || key(x) <= key(s[0]) {
      assert ([x] + s)[1..] == s;
    } else {
      var rest := Insert(x, s[1..], key);
      assert ([s[0]] + rest)[1..] == rest;
      SumOfInsert(x, s[1..], key, f);
    }
  }

  /** Sorting does not change a sum: the sorted rows are the same rows. */
  lemma {:induction false} SumOfSortBy<T>(s: seq<T>, key: T -> int, f: T -> int)
    ensures SumOf(SortBy(s, key), f) == SumOf(s, f)
    decreases |s|
  {
    if |s| > 0 {
      SumOfSortBy(s[1..], key, f);
      SumOfInsert(s[0], SortBy(s[1..], key), key, f);
    }
  }

  lemma {:induction false} InsertDistinct<T>(x: T, s: seq<T>, key: T -> int, f: T -> int)
    requires DistinctBy(s, f)
    requires forall y :: y in s ==> f(y) != f(x)
    ensures DistinctBy(Insert(x, s, key), f)
    decreases |s|
  {
    if |s| == 0 || key(x) <= key(s[0]) {
      var r := [x] + s;
      forall i, j | 0 <= i < j < |r| ensures f(r[i]) != f(r[j]) {
        if i == 0 {
          assert r[j] == s[j - 1];
          assert r[j] in s;
        }
      }
    } else {
      var rest := Insert(x, s[1..], key);
      InsertDistinct(x, s[1..], key, f);
      var r := [s[0]] + rest;
      forall i, j | 0 <= i < j < |r| ensures f(r[i]) != f(r[j]) {
        if i == 0 {
          assert r[j] == rest[j - 1];
          assert r[j] in multiset(rest);
          assert r[j] == x || r[j] in multiset(s[1..]);
          if r[j] != x {
            var k :| 0 <= k < |s[1..]| && s[1..][k] == r[j];
            assert s[k + 1] == r[j];
          } else {
            assert s[0] in s;
          }
        } else {
          assert r[i] == rest[i - 1] && r[j] == rest[j - 1];
        }
      }
    }
  }

  /** A key that is unique before sorting is unique after it. */
  lemma {:induction false} SortByDistinct<T>(s: seq<T>, key: T -> int, f: T -> int)
    requires DistinctBy(s, f)
    ensures DistinctBy(SortBy(s, key), f)
    decreases |s|
  {
    if |s| > 0 {
      var sorted := SortBy(s[1..], key);
      SortByDistinct(s[1..], key, f);
      forall y | y in sorted ensures f(y) != f(s[0]) {
        assert y in multiset(s[1..]);
        var k :| 0 <= k < |s[1..]| && s[1..][k] == y;
        assert s[k + 1] == y;
      }
      InsertDistinct(s[0], sorted, key, f);
    }
  }

  /** The elements of `s` that satisfy `keep`, in their order in `s`. */
  function Filter<T(!new)>(s: seq<T>, keep: T -> bool): (r: seq<T>)
    ensures forall x :: x in r <==> x in s && keep(x)
    ensures |r| <= |s|
  {
    if |s| == 0 then []
    else if keep(s[0]) then [s[0]] + Filter(s[1..], keep)
    else Filter(s[1..], keep)
  }

  lemma {:induction false} SumOfAppend<T>(a: seq<T>, b: seq<T>, f: T -> int)
    ensures SumOf(a + b, f) == SumOf(a, f) + SumOf(b, f)
    decreases |a|
  {
    if |a| == 0 {
      assert a + b == b;
    } else {
      assert (a + b)[1..] == a[1..] + b;
      SumOfAppend(a[1..], b, f);
    }
  }
}

=== FILE: server.dfy ===
/** The server as a whole: the store after a sequence of requests to the endpoints that
    change stock, `POST /products`, `POST /stock/receive` and `POST /sales`.

    A refused request or a rolled-back transaction leaves the store as it was. Receipts go
    through the corrected guard `Stock.ReceiveStockChecked`, under which no batch ever
    holds negative stock. */
module Server {
  import opened Results
  import opened Domain
  import opened Sequences
  import Checkout
  import Stock
  import Products

  /** One request to an endpoint that writes to the store, with the clock readings and
      generated values it needs. */
  datatype Request =
    | NewProduct(product: Products.ProductRequest)
    | Receive(receipt: Stock.ReceiptRequest, today: Day, receivedAt: Instant)
    | Sell(items: Option<seq<Checkout.CartLine>>, payment: Option<Checkout.PaymentInput>,
           invoiceNo: string, soldAt: string)

  /** The database before any request: every table empty. */
  const Initial: Store := Store([], [], [], [], [], [])

  /** The store after one request; an error keeps the store it had. */
  function Handle(db: Store, req: Request): Store
  {
    match req
    case NewProduct(p) =>
      (match Products.CreateProduct(db, p)
       case Ok((db', _)) => db'
       case Err(_) => db)
    case Receive(receipt, today, receivedAt) =>
      (match Stock.ReceiveStockChecked(db, receipt, today, receivedAt)
       case Ok((db', _)) => db'
       case Err(_) => db)
    case Sell(items, payment, invoiceNo, soldAt) =>
      (match Checkout.Checkout(db, items, payment, invoiceNo, soldAt)
       case Ok((db', _)) => db'
       case Err(_) => db)
  }

  /** The store after the requests, in order. */
  function Serve(db: Store, reqs: seq<Request>): Store
    decreases |reqs|
  {
    if |reqs| == 0 then db else Serve(Handle(db, reqs[0]), reqs[1..])
  }

  /** No batch holds negative stock, and batch ids are unique. */
  predicate StockSound(db: Store)
  {
    Stock.NonNegativeStock(db.batches) && DistinctBy(db.batches, BatchKey)
  }

  /** Every request keeps the stock sound: a product creation leaves the batches alone, a
      corrected receipt appends a positive batch with a fresh id, and a checkout lowers each
      batch by at most its stock and changes no id. */
  lemma HandleKeepsSound(db: Store, req: Request)
    requires StockSound(db)
    ensures StockSound(Handle(db, req))
  {
    match req
    case NewProduct(p) =>
    case Receive(receipt, today, receivedAt) =>
      if Stock.ReceiveStockChecked(db, receipt, today, receivedAt).Ok? {
        Stock.ReceiveCheckedKeepsNonNegative(db, receipt, today, receivedAt);
        Stock.ReceiveKeepsIdsDistinct(db, receipt, today, receivedAt);
      }
    case Sell(items, payment, invoiceNo, soldAt) =>
      if Checkout.Checkout(db, items, payment, invoiceNo, soldAt).Ok? {
        Stock.CheckoutKeepsNonNegative(db, items, payment, invoiceNo, soldAt);
        Checkout.CheckoutRecords(db, items, payment, invoiceNo, soldAt);
      }
  }

  lemma {:induction false} ServeKeepsSound(db: Store, reqs: seq<Request>)
    requires StockSound(db)
    ensures StockSound(Serve(db, reqs))
    decreases |reqs|
  {
    if |reqs| > 0 {
      HandleKeepsSound(db, reqs[0]);
      ServeKeepsSound(Handle(db, reqs[0]), reqs[1..]);
    }
  }

  /** Whatever requests the server has handled since the database was created, no batch
      holds negative stock and no two batches share an id. */
  lemma ReachableStockSound(reqs: seq<Request>)
    ensures Stock.NonNegativeStock(Serve(Initial, reqs).batches)
    ensures DistinctBy(Serve(Initial, reqs).batches, BatchKey)
  {
    ServeKeepsSound(Initial, reqs);
  }
}

=== FILE: stock.dfy ===
/** Receiving stock and the stock history, server/controllers/stockController.ts.

    A receipt appends one batch to `inventory_batches`; the history joins every batch with
    its product, newest receipt first, and values the stock at cost. */
module Stock {
  import opened Results
  import opened Domain
  import opened Sequences
  import Checkout

  /** The body of `POST /stock/receive`. A missing or empty `expiry_date` is `None`; a missing
      number is 0 and a missing batch number is the empty string, all falsy like the absent
      JSON fields. */
  datatype ReceiptRequest = ReceiptRequest(
    productId: int,
    batchNo: string,
    expiry: Option<Day>,
    costPrice: int,
    qty: int)

  datatype StockError =
    | MissingField      // 400 "All fields are required"
    | ExpiryNotFuture   // 400 "Expiry date must be in the future"
    | StorageFailure    // 500: the insert violates the foreign key on `product_id`
    | InvalidAmount     // cost or quantity below 1, refused by the corrected receipt only

  /** The guard `!product_id || !batch_no || !expiry_date || !cost_price || !qty`. */
  predicate HasFalsyField(req: ReceiptRequest)
  {
    req.productId == 0 || req.batchNo == "" || req.expiry.None? || req.costPrice == 0 || req.qty == 0
  }

  /** Whether some product has this id: the foreign key on `inventory_batches.product_id`. */
  predicate ProductExists(products: seq<Product>, id: int)
  {
    exists i :: 0 <= i < |products| && products[i].id == id
  }

  /** The batch a receipt inserts. */
  function ReceivedBatch(id: int, req: ReceiptRequest, receivedAt: Instant): Batch
    requires req.expiry.Some?
  {
    Batch(id, req.productId, req.batchNo, req.expiry.value, req.costPrice, req.qty, receivedAt)
  }

  /** `receiveStock` as written. `today` is the current UTC day and `receivedAt` the current
      instant. A `YYYY-MM-DD` expiry parses as midnight UTC of that day, so it is "not in the
      future" exactly when it is today or earlier. On success the store gains one batch and
      the answer is the new batch's id. */
  function ReceiveStock(db: Store, req: ReceiptRequest, today: Day, receivedAt: Instant)
    : (r: Result<(Store, int), StockError>)
    ensures r == Err(MissingField) <==> HasFalsyField(req)
    ensures r == Err(ExpiryNotFuture) <==> !HasFalsyField(req) && req.expiry.value <= today
    ensures r.Ok? <==>
              !HasFalsyField(req) && req.expiry.value > today && ProductExists(db.products, req.productId)
    ensures r.Ok? ==>
              var (db', id) := r.value;
              && db' == db.(batches := db.batches + [ReceivedBatch(id, req, receivedAt)])
              && forall i :: 0 <= i < |db.batches| ==> db.batches[i].id < id
  {
    if HasFalsyField(req) then Err(MissingField)
    else if req.expiry.value <= today then Err(ExpiryNotFuture)
    else if FindProduct(db.products, req.productId).None? then Err(StorageFailure)
    else
      var id := NextId(db.batches, BatchKey);
      Ok((db.(batches := db.batches + [ReceivedBatch(id, req, receivedAt)]), id))
  }

  /** A receipt keeps the batch ids unique: the new id is above every id in use. */
  lemma ReceiveKeepsIdsDistinct(db: Store, req: ReceiptRequest, today: Day, receivedAt: Instant)
    requires DistinctBy(db.batches, BatchKey)
    requires ReceiveStock(db, req, today, receivedAt).Ok?
    ensures DistinctBy(ReceiveStock(db, req, today, receivedAt).value.0.batches, BatchKey)
  {
    var (db', id) := ReceiveStock(db, req, today, receivedAt).value;
    forall i, j | 0 <= i < j < |db'.batches| ensures db'.batches[i].id != db'.batches[j].id {
      if j == |db.batches| {
        assert db'.batches[i] == db.batches[i];
      } else {
        assert db'.batches[i] == db.batches[i] && db'.batches[j] == db.batches[j];
      }
    }
  }

  // ---------------------------------------------------------------------------------------
  // Negative receipts
  // ---------------------------------------------------------------------------------------

  /** No batch holds a negative quantity. */
  predicate NonNegativeStock(batches: seq<Batch>)
  {
    forall i :: 0 <= i < |batches| ==> batches[i].qtyOnHand >= 0
  }

  /** The guard tests only for falsy fields, so a negative quantity passes: receiving -5 units
      creates a batch with -5 on hand, and the stock is no longer non-negative. */
  lemma NegativeReceiptAccepted()
    ensures var db := Store([Product(1, "Paracetamol", None, None, 1000, 10)], [], [], [], [], []);
            var r := ReceiveStock(db, ReceiptRequest(1, "B-1", Some(30), 700, -5), 0, 0);
            && NonNegativeStock(db.batches)
            && r.Ok?
            && !NonNegativeStock(r.value.0.batches)
  {
    var db := Store([Product(1, "Paracetamol", None, None, 1000, 10)], [], [], [], [], []);
    assert ProductExists(db.products, 1) by {
      assert db.products[0].id == 1;
    }
    var r := ReceiveStock(db, ReceiptRequest(1, "B-1", Some(30), 700, -5), 0, 0);
    assert r.value.0.batches[0].qtyOnHand == -5;
  }

  /** The receipt as evidently intended: the receiving form's rule that cost and quantity
      are at least 1 is enforced by the server as well. */
  function ReceiveStockChecked(db: Store, req: ReceiptRequest, today: Day, receivedAt: Instant)
    : (r: Result<(Store, int), StockError>)
    ensures r.Ok? <==>
              && !HasFalsyField(req) && req.expiry.value > today
              && req.costPrice >= 1 && req.qty >= 1
              && ProductExists(db.products, req.productId)
    ensures r.Ok? ==> r == ReceiveStock(db, req, today, receivedAt)
    ensures r.Ok? ==> r.value.0.batches[|db.batches|].qtyOnHand >= 1
  {
    if HasFalsyField(req) then Err(MissingField)
    else if req.costPrice < 1 || req.qty < 1 then Err(InvalidAmount)
    else ReceiveStock(db, req, today, receivedAt)
  }

  /** With the corrected receipt, stock is never negative: receipts add positive batches and
      a committed checkout lowers a batch by at most its positive stock. */
  lemma ReceiveCheckedKeepsNonNegative(db: Store, req: ReceiptRequest, today: Day, receivedAt: Instant)
    requires NonNegativeStock(db.batches)
    requires ReceiveStockChecked(db, req, today, receivedAt).Ok?
    ensures NonNegativeStock(ReceiveStockChecked(db, req, today, receivedAt).value.0.batches)
  {
    var db' := ReceiveStockChecked(db, req, today, receivedAt).value.0;
    forall i | 0 <= i < |db'.batches| ensures db'.batches[i].qtyOnHand >= 0 {
      if i < |db.batches| {
        assert db'.batches[i] == db.batches[i];
      }
    }
  }

  lemma CheckoutKeepsNonNegative(db: Store, items: Option<seq<Checkout.CartLine>>,
                                 payment: Option<Checkout.PaymentInput>, invoiceNo: string, soldAt: string)
    requires DistinctBy(db.batches, BatchKey)
    requires NonNegativeStock(db.batches)
    requires Checkout.Checkout(db, items, payment, invoiceNo, soldAt).Ok?
    ensures NonNegativeStock(Checkout.Checkout(db, items, payment, invoiceNo, soldAt).value.0.batches)
  {
    Checkout.CheckoutRecords(db, items, payment, invoiceNo, soldAt);
  }

  // ---------------------------------------------------------------------------------------
  // Stock history and valuation
  // ---------------------------------------------------------------------------------------

  /** One row of `getStockHistory`: a batch with its product's names. */
  datatype HistoryRow = HistoryRow(
    id: int,
    batchNo: string,
    expiry: Day,
    costPrice: int,
    qty: int,
    receivedAt: Instant,
    nameMm: string,
    nameEn: Option<string>)

  datatype History = History(rows: seq<HistoryRow>, totalValue: int)

  function ToRow(b: Batch, p: Product): HistoryRow
  {
    HistoryRow(b.id, b.batchNo, b.expiry, b.costPrice, b.qtyOnHand, b.receivedAt, p.nameMm, p.nameEn)
  }

  /** `inventory_batches JOIN products`: each batch with its product, in table order; a batch
      whose product is missing has no row. */
  function Joined(batches: seq<Batch>, products: seq<Product>): (r: seq<HistoryRow>)
    ensures |r| <= |batches|
    ensures forall k :: 0 <= k < |batches| && FindProduct(products, batches[k].productId).Some? ==>
              ToRow(batches[k], FindProduct(products, batches[k].productId).value) in r
    ensures forall row :: row in r ==>
              exists k :: 0 <= k < |batches| && FindProduct(products, batches[k].productId).Some?
                && row == ToRow(batches[k], FindProduct(products, batches[k].productId).value)
  {
    if |batches| == 0 then []
    else
      var rest := Joined(batches[1..], products);
      assert forall k :: 1 <= k < |batches| ==> batches[k] == batches[1..][k - 1];
      match FindProduct(products, batches[0].productId)
      case None => rest
      case Some(p) => [ToRow(batches[0], p)] + rest
  }

  /** `ORDER BY received_at DESC`, as an ascending sort on the negated instant. */
  function NewestFirst(row: HistoryRow): int { -row.receivedAt }

  function RowValue(row: HistoryRow): int { row.costPrice * row.qty }

  function BatchValue(b: Batch): int { b.costPrice * b.qtyOnHand }

  /** `getStockHistory`: every batch that has a product, newest receipt first, whatever its
      quantity (empty batches are listed too), and the stock valued at cost. */
  function StockHistory(db: Store): (r: History)
    ensures forall i, j :: 0 <= i < j < |r.rows| ==> r.rows[i].receivedAt >= r.rows[j].receivedAt
    ensures multiset(r.rows) == multiset(Joined(db.batches, db.products))
    ensures r.totalValue == SumOf(Joined(db.batches, db.products), RowValue)
  {
    var joined := Joined(db.batches, db.products);
    var rows := SortBy(joined, NewestFirst);
    SumOfSortBy(joined, NewestFirst, RowValue);
    assert forall i, j :: 0 <= i < j < |rows| ==> NewestFirst(rows[i]) <= NewestFirst(rows[j]);
    History(rows, SumOf(rows, RowValue))
  }

  /** Every batch references a product: the foreign key holds. */
  predicate ProductsKnown(db: Store)
  {
    forall k :: 0 <= k < |db.batches| ==> FindProduct(db.products, db.batches[k].productId).Some?
  }

  lemma {:induction false} JoinedValue(batches: seq<Batch>, products: seq<Product>)
    requires forall k :: 0 <= k < |batches| ==> FindProduct(products, batches[k].productId).Some?
    ensures SumOf(Joined(batches, products), RowValue) == SumOf(batches, BatchValue)
    ensures |Joined(batches, products)| == |batches|
    decreases |batches|
  {
    if |batches| > 0 {
      assert forall k :: 1 <= k < |batches| ==> batches[k] == batches[1..][k - 1];
      JoinedValue(batches[1..], products);
    }
  }

  /** With the foreign key intact the history lists every batch exactly once, and its total
      value is the whole table's stock valued at cost. */
  lemma HistoryValuesAllStock(db: Store)
    requires ProductsKnown(db)
    ensures |StockHistory(db).rows| == |db.batches|
    ensures StockHistory(db).totalValue == SumOf(db.batches, BatchValue)
  {
    JoinedValue(db.batches, db.products);
    assert |StockHistory(db).rows| == |multiset(Joined(db.batches, db.products))|;
  }

  /** A receipt raises the valuation by the new batch's cost times its quantity. */
  lemma ReceiptRaisesValue(db: Store, req: ReceiptRequest, today: Day, receivedAt: Instant)
    requires ProductsKnown(db)
    requires ReceiveStock(db, req, today, receivedAt).Ok?
    ensures var db' := ReceiveStock(db, req, today, receivedAt).value.0;
            StockHistory(db').totalValue == StockHistory(db).totalValue + req.costPrice * req.qty
  {
    var (db', id) := ReceiveStock(db, req, today, receivedAt).value;
    var b := ReceivedBatch(id, req, receivedAt);
    assert ProductsKnown(db') by {
      assert FindProduct(db.products, req.productId).Some?;
      forall k | 0 <= k < |db'.batches| ensures FindProduct(db'.products, db'.batches[k].productId).Some? {
        if k < |db.batches| {
          assert db'.batches[k] == db.batches[k];
        }
      }
    }
    HistoryValuesAllStock(db);
    HistoryValuesAllStock(db');
    SumOfAppend(db.batches, [b], BatchValue);
  }
}
